=== FILE: README.md ===
# selfbot command engine in Dafny

This project models the command-handling core of the Discord self-bot in
`selfbot.py`:

- **Registry.** The registry that `SelfBot.cmd` builds. It maps each command
  name, including static aliases, to a handler, a usage text and the two
  contexts the command may be used in.
- **Dispatcher.** The recursive resolver `parse_command`. It caps the alias
  depth at `MAX_RECURSION_DEPTH = 10`, checks the guild/private context,
  rewrites user-defined aliases through a restricted `str.format`, and
  otherwise reports an invalid command.
- **Commands with state.**
  - `alias` edits the user-defined alias map.
  - `scheduler` creates and cancels timed commands.
  - `help` looks up a usage text.
  - `seen` finds the latest guild message of a user.
- **Scheduler loop.** One pass of `scheduler_loop` deletes each due task and
  hands it to the resolver with its stored depth, in id order. The loop
  catches nothing. A scheduled dispatch that does not reach a handler raises:
  a template that cannot be filled raises directly, and every error reply
  raises while building its footer, because the `scheduler add` reply has
  already emptied the origin message. Such a dispatch ends the pass and the
  loop for good.
- **Message events.** `on_message` and `on_message_edit` append one row to the
  message log and refresh the user, guild, channel and nickname tables. A
  posted message by the bot's own account that starts with the prefix is
  dispatched at depth 0.
- **Duration helpers.** `Util.convdatestring` parses `#d#h#m#s` date strings.
  `Util.strfdelta` renders a duration as text.

Everything is modelled as immutable data and pure functions, except the
scanning loop of `convdatestring`. It is a method, `Duration.Scan`, which
`Duration.ConvDateString` calls. `Scheduler.Tick` picks the due tasks of a
pass, `Scheduler.LoopPass` runs them as the loop does, and `Scheduler.Loop`
chains passes.

Conventions of the model:
- Time is a whole number of seconds passed in as a parameter.
- Strings are `seq<char>`.
- The SQLite tables are maps, and the message log is a sequence.
- A handler that raises `NameError` (some usage hints in `alias` and
  `scheduler` refer to globals that do not exist) ends as `Handled.NameError`
  with its state unchanged. The resolver catches this error.

Modules, one per file:
- `Base` — `Option`, `Result`, `Handled`.
- `Text` — Python's `split`, `join`, `strip`, `isdigit`, `int`, `str` and
  `lower` on strings.
- `Template` — the `{n}` subset of `str.format`.
- `Duration` — `convdatestring` and `strfdelta`.
- `Registry` — `cmd` and `help`.
- `Dispatcher` — `parse_command`.
- `AliasCommand` — the `alias` command.
- `Scheduler` — the `scheduler` command and the loop pass.
- `LogStore` — the tables and `seen`.
- `Ingestion` — the two message events.

## Model

| member | source | states |
|---|---|---|
| Text.Split | selfbot.py:929 | `split(' ')` never returns an empty list, no piece contains the separator, and there is one more piece than separators |
| Text.JoinSplit | selfbot.py:136 | re-joining the pieces of a split with the same separator gives back the original text |
| Text.SplitJoin | selfbot.py:348-349 | splitting a join of separator-free pieces gives back the pieces |
| Text.TokenSplit | selfbot.py:135-136 | for `w + " " + t` with no space in `w`, the first token is `w` and the rest re-joined is exactly `t` |
| Text.WordsOfLine | selfbot.py:929-961 | the words of `a b rest` are `a`, `b` and the words of `rest`, and the words from the third on join back to `rest` |
| Text.Strip | selfbot.py:481 | `strip(chars)` removes exactly the longest prefix and suffix made of `chars`; the result neither starts nor ends with one of them |
| Text.StripFramed | selfbot.py:1110 | stripping a text wrapped in removable characters gives back the text when its own ends are not removable |
| Text.DecimalTextMember | selfbot.py:988 | a text is `str(n)` of some id in a set exactly when it is a canonical decimal whose value is in the set |
| Text.DecimalValueText | selfbot.py:995 | `str(int(s)) == s` for a canonical decimal `s` |
| Text.NatTextValue | selfbot.py:988 | `int(str(n)) == n` |
| Text.IntTextSign | selfbot.py:473-476 | the text of an integer is never empty and starts with a minus sign exactly when the integer is negative |
| Text.IntTextInjective | selfbot.py:473-476 | distinct integers have distinct texts |
| Text.NatTextInjective | selfbot.py:988 | distinct ids have distinct decimal texts |
| Text.Lower | selfbot.py:239 | `lower` keeps the length, turns every ASCII capital into the small letter at the same place of the alphabet, leaves every other character alone, and leaves no capital |
| Text.LowerIdempotent | selfbot.py:239 | lower-casing an already lower-cased word changes nothing |
| Template.Format | selfbot.py:349 | a template without braces is returned unchanged |
| Template.FormatField | selfbot.py:349 | a field `{n}` becomes the n-th argument, or the IndexError when there are too few arguments |
| Template.FormatLiteralPrefix | selfbot.py:349 | brace-free text in front of a template is copied through unchanged |
| Template.FormatWhole | selfbot.py:349 | the template `{0}` yields its first argument |
| Duration.Scan | selfbot.py:488-502 | the scanning loop leaves only digits pending, and what it has settled plus the worth of the pending digits is the worth of the whole string |
| Duration.ConvDateString | selfbot.py:480-502 | after stripping spaces and commas, the scan yields the duration sum: each digit run times the unit of the character after it (d/h/m/s, others 0), plus a trailing bare number as seconds |
| Duration.DurationSumConcat | selfbot.py:488-502 | durations add up over concatenation when the first part does not end inside a number |
| Duration.DurationOfTerm | selfbot.py:492-502 | one number followed by one unit letter is worth the number times the unit |
| Duration.DurationOfBareNumber | selfbot.py:497-498 | a number without a unit counts as seconds |
| Duration.DurationOfFullForm | selfbot.py:967-968 | `#d#h#m#s` is worth d·86400 + h·3600 + m·60 + s |
| Duration.FullFormIsOneWord | selfbot.py:967-968 | a `#d#h#m#s` string is one word, and stripping spaces and commas leaves it unchanged |
| Duration.Parts | selfbot.py:466-468 | the days, hours, minutes and seconds fields recompose to the total and stay within their ranges |
| Duration.StrfDeltaDropsHours | selfbot.py:465-478 | as written, adding an hour that stays in the same day does not change the rendered text |
| Duration.StrfDeltaAsWritten | selfbot.py:465-478 | as written: the days (when non-zero), minutes and seconds of the duration; it carries no contract of its own, and the hour it drops is stated by Duration.StrfDeltaDropsHours and Duration.StrfDeltaAsWrittenOneHour |
| Duration.StrfDelta | selfbot.py:465-478 | corrected: the rendering is never empty; with the hour field, Duration.StrfDeltaInjective shows that different durations read differently |
| Duration.StrfDeltaAsWrittenOneHour | selfbot.py:465-478 | as written, a delay of one hour renders exactly like a delay of none; with the hour field the two texts differ |
| Duration.RenderPartsAroundClock | selfbot.py:470-477 | corrected: the rendered text is the clock text, preceded by the days quantity and a space only when the day count is non-zero |
| Duration.WordsOfRendering | selfbot.py:470-477 | corrected: the rendered text is the days quantity (only when non-zero) followed by the other fields, each a number and its unit |
| Duration.RenderPartsInjective | selfbot.py:465-478 | corrected: different field values always render to different texts |
| Duration.ClockTextInjective | selfbot.py:474-477 | corrected: two clock texts with the same words have the same hours, minutes and seconds |
| Duration.StrfDeltaInjective | selfbot.py:465-478 | with the hour field, two durations render the same exactly when they are equal |
| Registry.AddStaticAliases | selfbot.py:119-123 | the names afterwards are the old names plus the aliases; an existing entry is never replaced; an alias whose name was free is bound to the primary's handler with its "Alias for" usage |
| Registry.StaticAliasCollisions | selfbot.py:119-123 | every alias whose name was already taken is reported, and only such aliases (taken beforehand or listed twice) are reported |
| Registry.Register | selfbot.py:115-125 | the primary name is bound to its handler, usage and contexts, overwriting any earlier entry; static aliases never replace an entry |
| Registry.RegisterAll | selfbot.py:115-125 | the registry's names are exactly the old names plus every declared primary and alias |
| Registry.RegisterAllBindsNames | selfbot.py:115-118 | when declared names are distinct, each name ends up bound to its own declaration |
| Registry.Help | selfbot.py:857-864 | an empty argument means `help`; the reply is "does not exist" exactly when the name is not registered; for a registered name it is the usage text filled with the invoking word, or the formatting error when the usage cannot be filled |
| Registry.HelpOnStaticAlias | selfbot.py:121 | help on a static alias shows "Alias for <prefix><primary>." |
| Dispatcher.AliasArgs | selfbot.py:349 | argument 0 of an alias template is the whole parameter text; the word arguments hold no space, number one more than the spaces, and re-joined with spaces give back the parameter text |
| Dispatcher.Dispatch | selfbot.py:319-352 | at depth 10 or more only the depth error is reported; a handler runs only for a registered command whose context flag allows it; a refusal names the flag that failed; "invalid" only for a name in neither map; no more than 10 − depth expansions |
| Dispatcher.CommandsShadowAliases | selfbot.py:329-346 | a registered name resolves the same under any alias map: invoked when the context allows, refused otherwise, never expanded |
| Dispatcher.UnknownCommandIsInvalid | selfbot.py:351-352 | a name in neither map is reported invalid at the current depth |
| Dispatcher.AliasExpansion | selfbot.py:347-350 | an alias `target rest` dispatches `target` one level deeper with `rest` filled from the parameters, or fails with the template error |
| Dispatcher.AliasForwardsParameters | selfbot.py:348-350 | the alias `b {0}` makes `a p` behave as `b p` one level deeper |
| Dispatcher.AliasPicksFirstWord | selfbot.py:349 | the alias `b {1}` passes on only the first word of the parameters |
| Dispatcher.AliasStep | selfbot.py:347-350 | an alias whose template has no fields dispatches its first word one level deeper with the rest of the expansion, whatever the parameters |
| Dispatcher.AliasCycleExhaustsDepth | selfbot.py:321-324 | aliases that only expand into one another end with the depth error at depth 10, whatever the starting depth |
| Dispatcher.TwoAliasCycle | selfbot.py:347-350 | the cycle `x -> y`, `y -> x` ends with the depth error |
| AliasCommand.Alias | selfbot.py:928-965 | usage exactly for an unknown action; at most the named alias changes; add never replaces an existing alias; every other action needs an existing alias; a bare `list` raises `NameError` for `aliases`; show, remove and store reply with what they did |
| AliasCommand.AddStoresText | selfbot.py:960-963 | `alias add a text` on a new name stores `text` verbatim |
| AliasCommand.AddThenShow | selfbot.py:955-956 | after `alias add a text`, `alias show a` answers with `text` |
| AliasCommand.AddThenRemove | selfbot.py:957-959 | after `alias add a text`, `alias remove a` restores the original alias map |
| AliasCommand.EditNeedsExisting | selfbot.py:946-948 | `alias edit` on a missing alias is refused and creates nothing |
| AliasCommand.ThirdWordOverwrites | selfbot.py:945-963 | given a third word, every action except add replaces an existing alias' expansion with the rest of the line: `edit` does so as documented, and `remove` and `show` overwrite instead of removing or showing |
| AliasCommand.AddedAliasForwards | selfbot.py:962 | after `alias add a b {0}`, dispatching `a p` dispatches `b p` one level deeper |
| Scheduler.LargestWitness | selfbot.py:1004 | every non-empty set of ids has a largest member |
| Scheduler.Largest | selfbot.py:1004 | `max` is a member of the set and no member exceeds it |
| Scheduler.NextId | selfbot.py:1003-1006 | a new id is fresh and above every id in use; it is 0 exactly when nothing is scheduled |
| Scheduler.WithIdOrDelay | selfbot.py:987-1010 | the handler after the action word: unknown ids are refused for every action but add; on two words naming a known id, `show` reports it and only `show` does, the remove words delete it and only they do; three or more words schedule |
| Scheduler.AddTask | selfbot.py:1003-1009 | a new task gets an id above every id in use, the parsed delay from now, the remaining words re-joined, and depth + 1; all other tasks are kept |
| Scheduler.SchedulerCommand | selfbot.py:969-1010 | usage exactly for an unknown action; `list` lists all ids; on two words naming a known id, `show` reports that task without changing anything and the remove words delete it, and no other action does either; a new task gets a fresh id, the parsed delay from now, the rest of the line, and depth + 1 |
| Scheduler.Tick | selfbot.py:129-137 | the due tasks of a pass: exactly the tasks whose time has passed are picked, each once, in increasing id order, with the first word of its line as command and the rest as parameters; what stays is exactly the tasks not yet due, untouched |
| Scheduler.DueFromSound | selfbot.py:130-137 | every task the scan over an id range hands on is a due task of that range, with its own command line and depth |
| Scheduler.DueFromOrdered | selfbot.py:130 | the scan hands tasks on in strictly increasing id order, so no id fires twice |
| Scheduler.DueFromComplete | selfbot.py:130-132 | every due task of the scanned id range is handed on |
| Scheduler.Run | selfbot.py:136-137 | a task stored at depth 10 or more is refused by the depth check |
| Scheduler.UpToEscapeStops | selfbot.py:130-137 | the dispatches performed are the first ones in order, with none escaping before the last, and they stop early only at an escaping error |
| Scheduler.StopsExactlyOnEscape | selfbot.py:130-137 | the run ends on an escaping error exactly when some dispatch raises; otherwise every dispatch is performed |
| Scheduler.RunPass | selfbot.py:130-137 | deleting and dispatching in order: the outcomes stop at the first escaping error, the pass is marked stopped exactly when some dispatch raises, and only the dispatched tasks are deleted |
| Scheduler.PassAgainstTick | selfbot.py:129-137 | deleting all due tasks of a pass leaves what `Tick` leaves; deleting only the first ones leaves every later due task scheduled |
| Scheduler.LoopPass | selfbot.py:129-137 | a pass of the loop: when no dispatch raises, it dispatches every due task and leaves exactly the tasks not yet due; when one raises, that dispatch is the last, the loop stops, and every later due task stays scheduled |
| Scheduler.PassWithoutEscapes | selfbot.py:129-137 | when no due task's dispatch raises, the pass is the one `Tick` describes |
| Scheduler.ErrorReplyStopsPass | selfbot.py:129-137 | a due task whose dispatch ends in an error reply (depth error, refusal, invalid command, unfillable template) stops the loop in that pass, and no later due task is dispatched |
| Scheduler.Escapes | selfbot.py:319-352 | which scheduled dispatches raise out of the loop: every one that does not reach a handler, because the error replies read the first word of the origin message that the add reply emptied (selfbot.py:370, 1010); stated through Scheduler.ErrorReplyStopsPass |
| Scheduler.LoopEndsForGood | selfbot.py:128-137 | once a dispatch has raised, further clock readings change nothing: no later pass runs |
| Scheduler.Loop | selfbot.py:127-139 | the loop over successive clock readings: it still runs exactly when no dispatch so far has raised, and when one has, that dispatch is the last one made |
| Scheduler.AddSchedulesLine | selfbot.py:1003-1009 | `scheduler add <delay> <cmd> <params>` stores the line under the next id, due after the parsed delay; it fires as `cmd` with `params` at depth + 1 |
| Scheduler.AddWithFullForm | selfbot.py:967-968 | `scheduler add #d#h#m#s <cmd> <params>` makes the task due d·86400 + h·3600 + m·60 + s seconds after now |
| Scheduler.ScheduledAtDepthLimitIsRefused | selfbot.py:1009 | a task scheduled at depth 9 runs at depth 10, is refused, and the refusal stops the loop |
| Scheduler.RemoveCancels | selfbot.py:998-1001 | `scheduler remove <id>` deletes exactly that task |
| Scheduler.ShowReports | selfbot.py:994-997 | `scheduler show <id>` reports exactly that task and leaves the schedule unchanged |
| Scheduler.OnId | selfbot.py:991-1001 | on a two-word line naming a scheduled id, `show` reports it, the remove words delete it and `list` does nothing, and no other action does either |
| LogStore.LoggedText | selfbot.py:197 | the stored text is the content, one space, then the attachment URLs joined by spaces |
| LogStore.Record | selfbot.py:158-231 | the log grows by exactly one row carrying the message, author, channel, guild, text, time and kind; earlier rows are untouched; the identity tables are overwritten only at the event's keys |
| LogStore.RecordKeepsWellFormed | selfbot.py:56-69 | recording keeps row ids sequential and every foreign key resolvable |
| LogStore.LatestBefore | selfbot.py:1119-1129 | the chosen row is visible to the query, and no visible row is later |
| LogStore.Visible | selfbot.py:1120-1126 | a row the query can return: a guild message by the user whose guild, channel, author and nickname rows all exist (the inner joins); stated through LogStore.SeenUser |
| LogStore.Query | selfbot.py:1119-1129 | binding an id of 2^63 or more raises `OverflowError`, which the resolver turns into an error reply; any smaller id gets the `seen` reply for that user |
| LogStore.SightingOf | selfbot.py:1120 | the shown name is the nickname when set, the user name otherwise |
| LogStore.SeenUser | selfbot.py:1130-1137 | never "invalid user"; "not seen" exactly when no guild row of the user joins all tables, and then the query is echoed; otherwise the reply shows the latest such row |
| LogStore.Seen | selfbot.py:1110-1129 | an invalid-user error exactly when the stripped parameter is neither empty nor all digits; the overflow error exactly when the id looked up (the asker's when the parameter is empty) is 2^63 or more |
| LogStore.SeenWithoutParameter | selfbot.py:1110-1113 | with no parameter, `seen` runs the query for the asker |
| LogStore.SeenOfId | selfbot.py:1110-1117 | a parameter that strips to the decimal text of an id runs the query for that id |
| LogStore.SeenWrappedId | selfbot.py:1110 | an id wrapped in mention characters runs the query for that id |
| LogStore.SeenBareId | selfbot.py:1110-1117 | the bare decimal id runs the query for that id |
| LogStore.SeenOfHugeId | selfbot.py:1117-1129 | an id of 2^63 or more, such as 9223372036854775808, gets the overflow error reply whatever the log holds |
| LogStore.SeenMention | selfbot.py:1110 | the mentions `<@id>` and `<@!id>` run the query for that id |
| LogStore.SeenMentionForms | selfbot.py:1110-1117 | `<@id>`, `<@!id>` and the bare id all run the query for the same user |
| LogStore.SeenAfterRecord | selfbot.py:1119-1132 | a member's guild message, logged no earlier than anything else, is what `seen` reports for that member next, unless the member's id is 2^63 or more and the query raises |
| Ingestion.CommandWord | selfbot.py:239 | the command word contains no space and no capital letter |
| Ingestion.CommandParams | selfbot.py:240 | the parameters are the stripped content after its first space; it carries no contract of its own, and Ingestion.CommandLine and Ingestion.SpaceAfterPrefix state what it gives |
| Ingestion.OnMessage | selfbot.py:233-241 | the message is always logged as created; it is dispatched exactly when the bot's own account wrote it and it starts with the prefix, and then at depth 0 with the lower-cased command word and the parameter text; a command invoked directly is lower-case |
| Ingestion.OnMessageEdit | selfbot.py:244-315 | as written: an edit is never dispatched and appends exactly one edit row for the new version, stamped with the previous version's edit time or else the creation time, and refreshes the identity tables as a post does; earlier rows stay |
| Ingestion.EditTimeAsWritten | selfbot.py:284 | as written: the previous version's edit time, else the creation time; it carries no contract of its own, and Ingestion.EditRowLagsOneEdit and Ingestion.EditTimeAsWrittenLags state what it gives |
| Ingestion.EditTimeAsWrittenLags | selfbot.py:284 | as written, a message created at 100 and first edited at 160 is logged as edited at 100; corrected, at 160 |
| Ingestion.EditRowLagsOneEdit | selfbot.py:284 | as written, every edit row carries the time the corrected handler gave the previous version |
| Ingestion.CorrectedOnMessageEdit | selfbot.py:244-315 | corrected: the same row and table updates, stamped with the time of the edit being logged |
| Ingestion.EditRowCarriesEditTime | selfbot.py:284 | corrected, the edit row carries the time of the edit whatever the previous version said |
| Ingestion.PostThenEdit | selfbot.py:190-200 | posting and then editing a message appends a created row and then an edited row for it |
| Ingestion.CommandLine | selfbot.py:239-240 | `<prefix><word> <rest>` runs the lower-cased `word` with parameters `rest` |
| Ingestion.SpaceAfterPrefix | selfbot.py:239-240 | `<prefix> word` runs `word` with `word` itself as parameter text, because the parameters are cut from the whole line |
| Ingestion.OthersAreOnlyLogged | selfbot.py:233-234 | a message by any other account is logged and never dispatched |

## Left out

- The Discord client: replies, embeds, footers, printing, and every transport
  command (`say`, `echo`, `purge`, `react`, `role`, `move`, `changegame`,
  `changestatus`, `userinfo`, `guildinfo`). They are calls into a library
  outside this model. Replies are modelled as datatypes, not rendered texts.
- SQLite: the SQL text, `vacuum`, the `log` view and the `query` commands.
  The tables are maps and the log is a sequence.
- JSON persistence of `conf.json` and `aliases.json`, because it is file I/O.
- The `eval`, `exec`, `async` and `shell` commands, because they run code and
  subprocesses.
- `stats`, `topusers` and `topchans`, because they need floating point,
  plotting and the wall clock.
- `timer`, `selfdestruct` and `choose`, because they need sleeping loops and
  randomness.
- Concurrency between the scheduler loop and the event handlers.
- Scheduler.LoopPass: does not model handlers that change the schedule while
  one pass is running. A handler that removes an id still in the pass's
  snapshot would make the loop's next lookup raise.
- Scheduler.LoopPass: reads the clock once per pass. The source reads
  `datetime.now()` again for every task, so a task that falls due while a
  pass is running may already fire in that pass.
- Scheduler.LoopPass: counts every dispatch that does not reach a handler as
  escaping. This rests on the origin message having been emptied by the
  `scheduler add` reply (selfbot.py:370, 1010), which the source relies on
  elsewhere too (selfbot.py:531-532). A template form the model reports as
  unsupported, such as `{}`, also counts as escaping, although Python would
  fill it and carry on.
- Scheduler.LoopPass: dispatches every firing of a pass, and every pass of
  Scheduler.Loop, under the alias map it is given. In the source each firing
  reads the live alias map (selfbot.py:347-349), so a scheduled `alias`
  handler changes how later firings of the same pass and later passes
  resolve. The model does not run handlers, so later firings do not see
  alias changes made by earlier ones.
- Ingestion.OnMessage: returns how the dispatch ended. It does not chain the
  invoked handler's effect on the alias map or the schedule.
- Time stamps: `time.mktime` reads a UTC time as local time. The model takes
  the stored seconds as given.
- Dispatcher.Dispatch: the depth-error, refusal and "Invalid command."
  replies read the first word of the message for their footer
  (selfbot.py:323, 331, 334, 352). On a message with no word, that raises
  outside any handler. Dispatch itself does not model this, and the message
  text is not part of `Context`. For scheduled tasks, whose origin message is
  always empty by then, Scheduler.Escapes counts these replies as raising. A
  posted command message starts with the prefix, so it has a first word
  unless the prefix is blank.
- Template.Format: supports only `{n}`, `{{` and `}}`. Automatic numbering
  `{}`, field names, indexing, conversions and format specs are reported as
  unsupported instead of being evaluated.
- Text.Lower and Text.IsDigit: ASCII case folding and ASCII digits only.
  Python's Unicode `lower` and `isdigit` accept more characters.
  `Text.Whitespace` is Python's full set of whitespace characters.
- Duration.ConvDateString: the overflow of Python's `timedelta` for very
  large values is not modelled.
- Scheduler.AddTask: `datetime.now() + delta` raises `OverflowError` when the
  due time passes the year 9999 (selfbot.py:1009). Times are unbounded
  integers here, so this is not modelled.
- Registry.BuiltinRegistry: the 41 declarations are written out, but no
  property of the concrete registry is proved beyond what RegisterAll states
  for any declaration list.
- LogStore.LatestBefore: when two rows have the same time, the later row is
  chosen. SQL leaves the order of ties unspecified.
- The `scheduler list` and `alias list` texts are not rendered. `alias list`
  raises `NameError` before producing any text.
- The `len(params) == 0` branches of `alias` and `scheduler` can never run,
  because `split(' ')` always returns at least one piece. They are not
  modelled.

## Findings

| source | as written | input that shows it | evidently intended | confidence | as-written member | corrected member |
|---|---|---|---|---|---|---|
| selfbot.py:465-478 | `strfdelta` renders days (when non-zero), minutes and seconds. The hours of the remainder are never shown, although the minute field is computed as `seconds // 60 % 60`. | A delay of 3600 seconds renders exactly like a delay of 0 seconds. | An hour field between days and minutes, so that different durations read differently. | high; not executed | Duration.StrfDeltaAsWritten | Duration.StrfDelta |
| selfbot.py:284 | The edit row is stamped with `before.edited_at`, or with `after.created_at` when the message had not been edited before. | A message created at 100 and first edited at 160 is logged as edited at 100. A second edit is logged at the time of the first. | The time of the edit being logged, `after.edited_at`. | medium; not executed | Ingestion.OnMessageEdit | Ingestion.CorrectedOnMessageEdit |

=== FILE: aliases.dfy ===
/**
 * The `alias` command: adds, edits, removes and shows the user-defined
 * aliases that the dispatcher expands. The alias map is the handler's whole
 * state; writing it back to `aliases.json` is not modelled.
 */
module AliasCommand {
  import opened Base
  import opened Text
  import opened Dispatcher
  import opened Registry

  type Aliases = map<string, string>

  /** Every action word the handler accepts; anything else gets the usage text. */
  const Actions: set<string> := {"add", "+", "edit", "=", "remove", "del", "delete", "-", "list", "show"}
  /** The words that create an alias. */
  const AddWords: set<string> := {"add", "+"}
  /** The words that set an alias' expansion (create or replace). */
  const SetWords: set<string> := {"add", "+", "edit", "="}
  /** The words that delete an alias. */
  const RemoveWords: set<string> := {"remove", "del", "delete", "-"}
  /** The words whose one-word usage hint names an alias. */
  const NamingWords: set<string> := {"show", "remove", "-", "del", "delete"}

  /** What the handler replies (the rendered texts are not modelled). */
  datatype AliasReply =
    | ShowUsage
    | NoSuchAlias(name: string)
    | Shown(name: string, expansion: string)
    | Deleted(name: string)
    | Stored(name: string, verb: string, expansion: string)
    | Silent

  /**
   * The handler. `alias list`, and every usage hint that names the command
   * prefix, refer to names that are not defined where the handler runs and
   * raise `NameError`, as does `alias add` of an existing alias.
   */
  function Alias(aliases: Aliases, parameters: string): (r: Handled<Aliases, AliasReply>)
    // The usage text is shown exactly for an unknown action, and then nothing changes.
    ensures r.Done? && r.reply.ShowUsage? <==> Words(parameters)[0] !in Actions
    ensures r.Done? && r.reply.ShowUsage? ==> r.state == aliases
    // Only names that are not defined where the handler runs are raised.
    ensures r.NameError? ==> r.name == "prefix" || r.name == "aliases"
    ensures r.NameError? ==> Words(parameters)[0] in Actions
    ensures Words(parameters) == ["list"] ==> r == NameError("aliases")
    // At most the named alias changes.
    ensures r.Done? && |Words(parameters)| < 2 ==> r.state == aliases
    ensures r.Done? && |Words(parameters)| >= 2 ==>
              r.state - {Words(parameters)[1]} == aliases - {Words(parameters)[1]}
    // Add never replaces an existing alias.
    ensures |Words(parameters)| >= 2 && Words(parameters)[0] in AddWords && Words(parameters)[1] in aliases
            ==> r == NameError("prefix")
    // Every action but add needs an existing alias.
    ensures |Words(parameters)| >= 2 && Words(parameters)[0] in Actions - AddWords && Words(parameters)[1] !in aliases
            ==> r == Done(aliases, NoSuchAlias(Words(parameters)[1]))
    ensures r.Done? && r.reply.NoSuchAlias? ==> r.reply.name !in aliases && r.state == aliases
    ensures r.Done? && r.reply.Shown? ==> r.reply.name in aliases && aliases[r.reply.name] == r.reply.expansion
                                          && r.state == aliases
    ensures r.Done? && r.reply.Deleted? ==> r.reply.name in aliases && r.state == aliases - {r.reply.name}
    // A stored expansion is the rest of the line after the action and the name.
    ensures r.Done? && r.reply.Stored? ==>
              && |Words(parameters)| >= 3 && r.reply.name == Words(parameters)[1]
              && r.reply.expansion == Join(Words(parameters)[2..], ' ')
              && r.state == aliases[r.reply.name := r.reply.expansion]
              && r.reply.verb == Words(parameters)[0] + "ed"
    ensures r.Done? && r.reply.Silent? ==> r.state == aliases
  {
    var words := Words(parameters);
    var action := words[0];
    if action !in Actions then Done(aliases, ShowUsage)
    else if |words| == 1 then
      if action in SetWords || action in NamingWords then NameError("prefix")
      else NameError("aliases")
    else
      var name := words[1];
      if name !in aliases && action !in AddWords then Done(aliases, NoSuchAlias(name))
      else if name in aliases && action in AddWords then NameError("prefix")
      else if |words| == 2 then
        if action in SetWords then NameError("prefix")
        else if action == "show" then Done(aliases, Shown(name, aliases[name]))
        else if action in RemoveWords then Done(aliases - {name}, Deleted(name))
        else Done(aliases, Silent)
      else
        var expansion := Join(words[2..], ' ');
        Done(aliases[name := expansion], Stored(name, action + "ed", expansion))
  }

  /** `alias add a text` on a fresh name stores `text` verbatim, spaces included. */
  lemma {:induction false} AddStoresText(aliases: Aliases, a: string, text: string)
    requires a !in aliases && ' ' !in a
    ensures Alias(aliases, "add " + a + " " + text) == Done(aliases[a := text], Stored(a, "added", text))
  {
    assert "add " + a + " " + text == "add" + " " + a + " " + text;
    WordsOfLine("add", a, text);
    assert "add" + "ed" == "added";
  }

  /** `alias show a` after `alias add a text` answers with `text`. */
  lemma {:induction false} AddThenShow(aliases: Aliases, a: string, text: string)
    requires a !in aliases && ' ' !in a
    ensures Alias(aliases, "add " + a + " " + text).Done?
    ensures Alias(Alias(aliases, "add " + a + " " + text).state, "show " + a) == Done(aliases[a := text], Shown(a, text))
  {
    AddStoresText(aliases, a, text);
    assert "show " + a == "show" + " " + a;
    WordsOfPair("show", a);
  }

  /** `alias remove a` after `alias add a text` restores the original alias map. */
  lemma {:induction false} AddThenRemove(aliases: Aliases, a: string, text: string)
    requires a !in aliases && ' ' !in a
    ensures Alias(aliases, "add " + a + " " + text).Done?
    ensures Alias(Alias(aliases, "add " + a + " " + text).state, "remove " + a) == Done(aliases, Deleted(a))
  {
    AddStoresText(aliases, a, text);
    assert "remove " + a == "remove" + " " + a;
    WordsOfPair("remove", a);
    assert aliases[a := text] - {a} == aliases;
  }

  /** `alias edit a text` on a missing alias is refused and creates nothing. */
  lemma {:induction false} EditNeedsExisting(aliases: Aliases, a: string, text: string)
    requires a !in aliases && ' ' !in a
    ensures Alias(aliases, "edit " + a + " " + text) == Done(aliases, NoSuchAlias(a))
  {
    assert "edit " + a + " " + text == "edit" + " " + a + " " + text;
    WordsOfLine("edit", a, text);
  }

  /**
   * Given a third word, every action but add overwrites an existing alias
   * with the rest of the line: `alias edit a text` replaces the expansion,
   * and so do `alias remove a text` and `alias show a text`, which neither
   * remove nor show.
   */
  lemma {:induction false} ThirdWordOverwrites(aliases: Aliases, action: string, a: string, text: string)
    requires action in Actions - AddWords && a in aliases && ' ' !in a
    ensures Alias(aliases, action + " " + a + " " + text) == Done(aliases[a := text], Stored(a, action + "ed", text))
  {
    assert ' ' !in action;
    WordsOfLine(action, a, text);
  }

  /**
   * After `alias add a b {0}` (with `b` a single word and `a` not a command),
   * dispatching `a` with any parameters dispatches `b` with the same
   * parameters one level deeper.
   */
  lemma {:induction false} AddedAliasForwards(reg: Registry, aliases: Aliases, inGuild: bool,
                                              a: string, b: string, params: string, depth: nat)
    requires a !in aliases && a !in reg && ' ' !in a && ' ' !in b && depth < MaxRecursionDepth
    ensures Alias(aliases, "add " + a + " " + b + " {0}").Done?
    ensures var after := Alias(aliases, "add " + a + " " + b + " {0}").state;
            Dispatch(reg, after, inGuild, a, params, depth) == Dispatch(reg, after, inGuild, b, params, depth + 1)
  {
    assert "add " + a + " " + b + " {0}" == "add " + a + " " + (b + " {0}");
    AddStoresText(aliases, a, b + " {0}");
    AliasForwardsParameters(reg, aliases[a := b + " {0}"], inGuild, a, b, params, depth);
  }
}

=== FILE: base.dfy ===
/** Failure-carrying wrappers shared by every module of the self-bot model. */
module Base {

  /** A value that may be absent: a nullable column, an optional edit time. */
  datatype Option<+T> = None | Some(value: T)

  /** The outcome of an operation that the original program lets raise. */
  datatype Result<+T, +E> = Ok(value: T) | Err(error: E)

  /**
   * How a command handler ends: with the new state and the reply it posts,
   * or by raising `NameError` on a global name that does not exist.
   */
  datatype Handled<+S, +R> = Done(state: S, reply: R) | NameError(name: string)
}

=== FILE: dispatcher.dfy ===
/**
 * `SelfBot.parse_command`: resolves a command word against the registry and
 * the user-defined aliases, checks the context, and decides which handler
 * runs. Alias expansion re-enters the resolver one level deeper; at depth
 * `MaxRecursionDepth` resolution stops with an error report.
 */
module Dispatcher {
  import opened Base
  import opened Text
  import opened Template
  import opened Registry

  /** `MAX_RECURSION_DEPTH`. */
  const MaxRecursionDepth: nat := 10

  /**
   * The message a dispatch answers to, reduced to whether it was posted in a
   * guild text channel (anything else counts as a private channel).
   */
  datatype Context = Context(inGuild: bool)

  /** Why a registered command was refused: "may not be used in pm" or "in a guild". */
  datatype Rejection = NotInPrivate | NotInGuild

  /**
   * How one dispatch ends, with the depth at which resolution stopped
   * (the starting depth plus the number of alias expansions performed).
   * `Invoke` is the handler call; `TemplateFailed` is the formatting error
   * that escapes the resolver uncaught; the others are error replies.
   */
  datatype Outcome =
    | DepthExceeded(depth: nat)
    | Rejected(command: string, reason: Rejection, depth: nat)
    | Invoke(command: string, handler: string, params: string, depth: nat)
    | TemplateFailed(alias: string, error: FormatError, depth: nat)
    | Invalid(command: string, depth: nat)

  /** Whether a command may run in the given context. */
  predicate AllowedIn(spec: CommandSpec, inGuild: bool)
  {
    if inGuild then spec.guildOk else spec.pmOk
  }

  /**
   * The positional arguments of an alias template: `{0}` is the whole
   * parameter text, `{k}` its k-th word. The words hold no space, there is
   * one more of them than there are spaces, and re-joined they give back
   * the parameter text.
   */
  function AliasArgs(params: string): (args: seq<string>)
    ensures |args| >= 2 && args[0] == params && args[1..] == Words(params)
    ensures forall k :: 1 <= k < |args| ==> ' ' !in args[k]
    ensures |args| - 2 == CountOf(params, ' ')
    ensures Join(args[1..], ' ') == params
  {
    JoinSplit(params, ' ');
    [params] + Words(params)
  }

  function Dispatch(reg: Registry, aliases: map<string, string>, inGuild: bool,
                    command: string, params: string, depth: nat): (r: Outcome)
    decreases MaxRecursionDepth - depth
    ensures depth >= MaxRecursionDepth ==> r == DepthExceeded(depth)
    ensures depth <= r.depth
    ensures r.DepthExceeded? && depth < MaxRecursionDepth ==> r.depth == MaxRecursionDepth
    ensures !r.DepthExceeded? ==> r.depth < MaxRecursionDepth
    ensures r.Invoke? ==> r.command in reg && r.handler == reg[r.command].handler && AllowedIn(reg[r.command], inGuild)
    ensures r.Rejected? ==> r.command in reg && !AllowedIn(reg[r.command], inGuild)
                            && (r.reason == NotInGuild <==> inGuild)
    ensures r.Invalid? ==> r.command !in reg && r.command !in aliases
    ensures r.TemplateFailed? ==> r.alias !in reg && r.alias in aliases
    ensures r.depth == depth && depth < MaxRecursionDepth && (r.Invoke? || r.Rejected?) ==> r.command == command
    ensures r.depth > depth ==> command !in reg && command in aliases
  {
    if depth >= MaxRecursionDepth then DepthExceeded(depth)
    else if command in reg then
      var spec := reg[command];
      if !inGuild && !spec.pmOk then Rejected(command, NotInPrivate, depth)
      else if inGuild && !spec.guildOk then Rejected(command, NotInGuild, depth)
      else Invoke(command, spec.handler, params, depth)
    else if command in aliases then
      var expansion := aliases[command];
      match Format(AfterFirstToken(expansion, ' '), AliasArgs(params))
      case Ok(expanded) => Dispatch(reg, aliases, inGuild, FirstToken(expansion, ' '), expanded, depth + 1)
      case Err(e) => TemplateFailed(command, e, depth)
    else Invalid(command, depth)
  }

  /**
   * A registered command is resolved without looking at the aliases: the
   * outcome is the same under any alias map, it involves no expansion, and
   * the handler runs exactly when the context allows it.
   */
  lemma CommandsShadowAliases(reg: Registry, aliases: map<string, string>, other: map<string, string>,
                              inGuild: bool, command: string, params: string, depth: nat)
    requires command in reg && depth < MaxRecursionDepth
    ensures Dispatch(reg, aliases, inGuild, command, params, depth)
         == Dispatch(reg, other, inGuild, command, params, depth)
    ensures Dispatch(reg, aliases, inGuild, command, params, depth)
         == (if AllowedIn(reg[command], inGuild) then Invoke(command, reg[command].handler, params, depth)
             else Rejected(command, if inGuild then NotInGuild else NotInPrivate, depth))
  {
  }

  /** A word that is neither a command nor an alias is reported invalid and nothing runs. */
  lemma UnknownCommandIsInvalid(reg: Registry, aliases: map<string, string>, inGuild: bool,
                                command: string, params: string, depth: nat)
    requires command !in reg && command !in aliases && depth < MaxRecursionDepth
    ensures Dispatch(reg, aliases, inGuild, command, params, depth) == Invalid(command, depth)
  {
  }

  /**
   * An alias whose expansion is the word `target` followed by the template
   * `rest` behaves exactly like dispatching `target` one level deeper with
   * `rest` filled in from the original parameters.
   */
  lemma AliasExpansion(reg: Registry, aliases: map<string, string>, inGuild: bool,
                       a: string, target: string, rest: string, params: string, depth: nat)
    requires a !in reg && a in aliases && aliases[a] == target + " " + rest
    requires ' ' !in target && depth < MaxRecursionDepth
    ensures Format(rest, AliasArgs(params)).Ok? ==>
              Dispatch(reg, aliases, inGuild, a, params, depth)
              == Dispatch(reg, aliases, inGuild, target, Format(rest, AliasArgs(params)).value, depth + 1)
    ensures Format(rest, AliasArgs(params)).Err? ==>
              Dispatch(reg, aliases, inGuild, a, params, depth)
              == TemplateFailed(a, Format(rest, AliasArgs(params)).error, depth)
  {
    TokenSplit(target, rest, ' ');
  }

  /** The alias `a -> "b {0}"` passes its parameters through: dispatching `a p` is dispatching `b p`. */
  lemma AliasForwardsParameters(reg: Registry, aliases: map<string, string>, inGuild: bool,
                                a: string, b: string, params: string, depth: nat)
    requires a !in reg && a in aliases && aliases[a] == b + " {0}"
    requires ' ' !in b && depth < MaxRecursionDepth
    ensures Dispatch(reg, aliases, inGuild, a, params, depth)
         == Dispatch(reg, aliases, inGuild, b, params, depth + 1)
  {
    AliasExpansion(reg, aliases, inGuild, a, b, "{0}", params, depth);
    FormatWhole(AliasArgs(params));
  }

  /** The alias `a -> "b {1}"` passes on only the first word of its parameters. */
  lemma AliasPicksFirstWord(reg: Registry, aliases: map<string, string>, inGuild: bool,
                            a: string, b: string, params: string, depth: nat)
    requires a !in reg && a in aliases && aliases[a] == b + " {1}"
    requires ' ' !in b && depth < MaxRecursionDepth
    ensures Dispatch(reg, aliases, inGuild, a, params, depth)
         == Dispatch(reg, aliases, inGuild, b, FirstToken(params, ' '), depth + 1)
  {
    AliasExpansion(reg, aliases, inGuild, a, b, "{1}", params, depth);
    var args := AliasArgs(params);
    FormatField(1, "", args);
    assert NatText(1) == "1";
    assert "{" + NatText(1) + "}" + "" == "{1}";
    assert args[1] + "" == args[1];
  }

  /**
   * An alias whose template after the first word has no fields expands to
   * that template verbatim, whatever the parameters: the first word is
   * dispatched one level deeper with the rest of the expansion as its text.
   */
  lemma AliasStep(reg: Registry, aliases: map<string, string>, inGuild: bool,
                  x: string, params: string, depth: nat)
    requires x !in reg && x in aliases && depth < MaxRecursionDepth
    requires BraceFree(AfterFirstToken(aliases[x], ' '))
    ensures Dispatch(reg, aliases, inGuild, x, params, depth)
         == Dispatch(reg, aliases, inGuild, FirstToken(aliases[x], ' '), AfterFirstToken(aliases[x], ' '), depth + 1)
  {
    assert Format(AfterFirstToken(aliases[x], ' '), AliasArgs(params)) == Ok(AfterFirstToken(aliases[x], ' '));
  }

  /**
   * A set of aliases that only ever expand to one another (no member is a
   * command, each expansion starts with a member and its template has no
   * fields): an alias cycle such as `x -> "y"`, `y -> "x"`.
   */
  ghost predicate ClosedAliasSet(reg: Registry, aliases: map<string, string>, names: set<string>)
  {
    forall x {:trigger StaysIn(reg, aliases, names, x)} :: x in names ==> StaysIn(reg, aliases, names, x)
  }

  /** `x` is an alias (not a command) whose expansion starts with a member of `names` and has no fields. */
  ghost predicate StaysIn(reg: Registry, aliases: map<string, string>, names: set<string>, x: string)
  {
    && x !in reg && x in aliases
    && FirstToken(aliases[x], ' ') in names
    && BraceFree(AfterFirstToken(aliases[x], ' '))
  }

  /**
   * Dispatching into a closed alias set never runs anything: it expands until
   * the depth budget is spent and ends with the depth error, after exactly
   * `MaxRecursionDepth - depth` expansions.
   */
  lemma {:induction false} AliasCycleExhaustsDepth(reg: Registry, aliases: map<string, string>, names: set<string>,
                                                   inGuild: bool, x: string, params: string, depth: nat)
    requires ClosedAliasSet(reg, aliases, names) && x in names
    ensures Dispatch(reg, aliases, inGuild, x, params, depth)
         == DepthExceeded(if depth < MaxRecursionDepth then MaxRecursionDepth else depth)
    decreases MaxRecursionDepth - depth
  {
    if depth < MaxRecursionDepth {
      assert StaysIn(reg, aliases, names, x);
      var next := FirstToken(aliases[x], ' ');
      var rest := AfterFirstToken(aliases[x], ' ');
      AliasStep(reg, aliases, inGuild, x, params, depth);
      AliasCycleExhaustsDepth(reg, aliases, names, inGuild, next, rest, depth + 1);
    }
  }

  /** The two-alias cycle `x -> "y"`, `y -> "x"` ends with the depth error from any starting depth. */
  lemma TwoAliasCycle(reg: Registry, aliases: map<string, string>, inGuild: bool,
                      x: string, y: string, params: string, depth: nat)
    requires x !in reg && y !in reg && x in aliases && y in aliases
    requires aliases[x] == y && aliases[y] == x && ' ' !in x && ' ' !in y
    ensures Dispatch(reg, aliases, inGuild, x, params, depth)
         == DepthExceeded(if depth < MaxRecursionDepth then MaxRecursionDepth else depth)
  {
    TokenAlone(x, ' ');
    TokenAlone(y, ' ');
    assert ClosedAliasSet(reg, aliases, {x, y});
    AliasCycleExhaustsDepth(reg, aliases, {x, y}, inGuild, x, params, depth);
  }
}

=== FILE: duration.dfy ===
/**
 * The two duration helpers of the `Util` class: `convdatestring`, which reads
 * strings such as "1d2h30m" into a number of seconds, and `strfdelta`, which
 * renders a number of seconds for replies. Durations are whole seconds.
 */
module Duration {
  import opened Text

  const SecondsPerMinute: nat := 60
  const SecondsPerHour: nat := 3600
  const SecondsPerDay: nat := 86400

  /** `convdatestring` strips these characters from both ends before scanning. */
  const DurationStripChars: set<char> := {' ', ','}

  /** The seconds one unit letter stands for; any other character stands for nothing. */
  function UnitSeconds(c: char): nat
  {
    if c == 'd' then SecondsPerDay
    else if c == 'h' then SecondsPerHour
    else if c == 'm' then SecondsPerMinute
    else if c == 's' then 1
    else 0
  }

  /**
   * What a (stripped) duration string is worth, read as a sequence of runs:
   * a digit run followed by a character contributes the run times that
   * character's unit, a digit run at the very end contributes itself as
   * seconds, and a character that follows no digits contributes nothing.
   */
  function DurationSum(s: string): nat
    decreases |s|
  {
    if |s| == 0 then 0
    else if !IsDigit(s[0]) then DurationSum(s[1..])
    else
      var k := DigitRunLength(s);
      if k == |s| then DecimalValue(s)
      else DecimalValue(s[..k]) * UnitSeconds(s[k]) + DurationSum(s[k + 1..])
  }

  /** A run of pending digits in front of a non-digit is consumed together with it. */
  lemma DurationSumRun(p: string, t: string)
    requires |p| >= 1 && AllDigits(p)
    requires |t| >= 1 && !IsDigit(t[0])
    ensures DurationSum(p + t) == DecimalValue(p) * UnitSeconds(t[0]) + DurationSum(t[1..])
  {
    var s := p + t;
    assert s[..|p|] == p;
    DigitRunLengthUnique(s, |p|);
    assert s[|p| + 1..] == t[1..];
  }

  /** A string made only of digits is worth its value in seconds. */
  lemma DurationSumDigits(p: string)
    requires AllDigits(p)
    ensures DurationSum(p) == DecimalValue(p)
  {
    if |p| > 0 {
      assert p[..|p|] == p;
      DigitRunLengthUnique(p, |p|);
    }
  }

  /** What the scanner carries between characters: the digits collected so far and the seconds settled. */
  datatype ScanState = ScanState(pending: string, seconds: nat)

  /**
   * One character of `convdatestring`'s loop: a digit is collected; a
   * non-digit with nothing collected is skipped; otherwise the collected
   * number is settled with this character as its unit (the source lists the
   * settled pairs and adds them up after the loop; the sum is built here as
   * they are settled).
   */
  function ScanStep(st: ScanState, c: char): ScanState
    requires AllDigits(st.pending)
  {
    if IsDigit(c) then ScanState(st.pending + [c], st.seconds)
    else if st.pending == "" then st
    else ScanState("", st.seconds + DecimalValue(st.pending) * UnitSeconds(c))
  }

  /** A scanner step keeps "settled seconds + worth of what is left" constant. */
  lemma ScanStepKeepsTotal(st: ScanState, s: string, i: nat)
    requires i < |s| && AllDigits(st.pending)
    ensures AllDigits(ScanStep(st, s[i]).pending)
    ensures ScanStep(st, s[i]).seconds + DurationSum(ScanStep(st, s[i]).pending + s[i + 1..])
         == st.seconds + DurationSum(st.pending + s[i..])
  {
    var c := s[i];
    if IsDigit(c) {
      assert (st.pending + [c]) + s[i + 1..] == st.pending + s[i..];
    } else if st.pending == "" {
      assert "" + s[i..] == s[i..];
      assert s[i..][1..] == s[i + 1..];
      assert "" + s[i + 1..] == s[i + 1..];
    } else {
      DurationSumRun(st.pending, s[i..]);
      assert s[i..][1..] == s[i + 1..];
      assert "" + s[i + 1..] == s[i + 1..];
    }
  }

  /**
   * `convdatestring`: strip spaces and commas, then scan left to right; a
   * number still pending at the end counts as seconds.
   */
  method ConvDateString(datestring: string) returns (seconds: nat)
    ensures seconds == DurationSum(Strip(datestring, DurationStripChars))
  {
    var st := Scan(Strip(datestring, DurationStripChars));
    DurationSumDigits(st.pending);
    seconds := st.seconds;
    if st.pending != "" {
      seconds := seconds + DecimalValue(st.pending);
    }
  }

  /** The scanning loop: what it settles plus what it leaves pending is the worth of the whole string. */
  method Scan(s: string) returns (st: ScanState)
    ensures AllDigits(st.pending)
    ensures st.seconds + DurationSum(st.pending) == DurationSum(s)
  {
    st := ScanState("", 0);
    var i := 0;
    assert st.pending + s[i..] == s;
    while i < |s|
      invariant 0 <= i <= |s|
      invariant AllDigits(st.pending)
      invariant st.seconds + DurationSum(st.pending + s[i..]) == DurationSum(s)
    {
      ScanStepKeepsTotal(st, s, i);
      st := ScanStep(st, s[i]);
      i := i + 1;
    }
    assert st.pending + s[i..] == st.pending;
  }

  /**
   * Durations add up over concatenation, as long as the first part does not
   * end in the middle of a digit run.
   */
  lemma {:induction false} DurationSumConcat(a: string, b: string)
    requires |a| == 0 || !IsDigit(a[|a| - 1])
    ensures DurationSum(a + b) == DurationSum(a) + DurationSum(b)
    decreases |a|
  {
    if |a| == 0 {
      assert a + b == b;
    } else if !IsDigit(a[0]) {
      assert (a + b)[1..] == a[1..] + b;
      DurationSumConcat(a[1..], b);
    } else {
      var k := DigitRunLength(a);
      assert k < |a|;
      assert (a + b)[..k] == a[..k];
      DigitRunLengthUnique(a + b, k);
      assert (a + b)[k + 1..] == a[k + 1..] + b;
      DurationSumConcat(a[k + 1..], b);
    }
  }

  /** One number followed by one character: the number times that character's unit. */
  lemma DurationOfTerm(n: nat, u: char)
    requires !IsDigit(u)
    ensures DurationSum(NatText(n) + [u]) == n * UnitSeconds(u)
  {
    NatTextValue(n);
    DurationSumRun(NatText(n), [u]);
    assert [u][1..] == "";
  }

  /** A bare number counts as seconds. */
  lemma DurationOfBareNumber(n: nat)
    ensures DurationSum(NatText(n)) == n
  {
    NatTextValue(n);
    DurationSumDigits(NatText(n));
  }

  /** One component of the documented form: a number and its unit letter. */
  function Term(n: nat, unit: char): string
  {
    NatText(n) + [unit]
  }

  /** A well-formed duration followed by one more term is worth that term more. */
  lemma DurationAppendTerm(a: string, n: nat, u: char)
    requires |a| == 0 || !IsDigit(a[|a| - 1])
    requires !IsDigit(u)
    ensures DurationSum(a + Term(n, u)) == DurationSum(a) + n * UnitSeconds(u)
  {
    DurationOfTerm(n, u);
    DurationSumConcat(a, Term(n, u));
  }

  /** The documented date-string form `#d#h#m#s`. */
  function FullForm(d: nat, h: nat, m: nat, s: nat): string
  {
    Term(d, 'd') + Term(h, 'h') + Term(m, 'm') + Term(s, 's')
  }

  /** The documented form `#d#h#m#s` is worth exactly the sum of its four parts. */
  lemma DurationOfFullForm(d: nat, h: nat, m: nat, s: nat)
    ensures DurationSum(FullForm(d, h, m, s))
         == d * SecondsPerDay + h * SecondsPerHour + m * SecondsPerMinute + s
  {
    DurationAppendTerm("", d, 'd');
    assert "" + Term(d, 'd') == Term(d, 'd');
    DurationAppendTerm(Term(d, 'd'), h, 'h');
    DurationAppendTerm(Term(d, 'd') + Term(h, 'h'), m, 'm');
    DurationAppendTerm(Term(d, 'd') + Term(h, 'h') + Term(m, 'm'), s, 's');
    assert UnitSeconds('d') == SecondsPerDay && UnitSeconds('h') == SecondsPerHour;
    assert UnitSeconds('m') == SecondsPerMinute && UnitSeconds('s') == 1;
    assert DurationSum("") == 0;
  }

  /** A number followed by a unit letter holds no space. */
  lemma TermHasNoSpace(n: nat, u: char)
    requires u != ' '
    ensures ' ' !in Term(n, u)
  {
    var t := NatText(n);
    assert forall i :: 0 <= i < |t| ==> IsDigit(t[i]);
  }

  /**
   * The documented form is one word, and stripping spaces and commas leaves
   * it alone: it starts with a digit and ends with `s`.
   */
  lemma FullFormIsOneWord(d: nat, h: nat, m: nat, s: nat)
    ensures ' ' !in FullForm(d, h, m, s)
    ensures Strip(FullForm(d, h, m, s), DurationStripChars) == FullForm(d, h, m, s)
  {
    TermHasNoSpace(d, 'd');
    TermHasNoSpace(h, 'h');
    TermHasNoSpace(m, 'm');
    TermHasNoSpace(s, 's');
    var f := FullForm(d, h, m, s);
    var first := Term(d, 'd');
    assert f[0] == first[0] == NatText(d)[0];
    assert IsDigit(f[0]);
    assert f[|f| - 1] == 's';
  }

  /* ---------------------------------------------------------------- strfdelta */

  /** A duration broken into the fields of a Python `timedelta` plus an hour field. */
  datatype DeltaParts = DeltaParts(days: int, hours: nat, minutes: nat, seconds: nat)

  /**
   * The calendar parts of a signed number of seconds: whole days rounded
   * down (as `timedelta.days` does for negative durations), then hours,
   * minutes and seconds of the non-negative remainder.
   */
  function Parts(total: int): (p: DeltaParts)
    ensures p.days * SecondsPerDay + p.hours * SecondsPerHour + p.minutes * SecondsPerMinute + p.seconds == total
    ensures p.hours < 24 && p.minutes < 60 && p.seconds < 60
  {
    var rem := total % 86400;
    var hours := rem / 3600;
    var minutes := rem / 60 % 60;
    assert rem == hours * 3600 + (rem % 3600);
    assert rem % 3600 == minutes * 60 + rem % 60;
    DeltaParts(total / 86400, hours, minutes, rem % 60)
  }

  /** The unit, pluralised unless the count is exactly 1. */
  function UnitWord(n: int, unit: string): string
  {
    unit + (if n != 1 then "s" else "")
  }

  /** "n unit" with the unit pluralised unless n is exactly 1. */
  function Quantity(n: int, unit: string): string
  {
    IntText(n) + " " + UnitWord(n, unit)
  }

  /**
   * `strfdelta` as written: days (only when non-zero), minutes and seconds.
   * The whole hours of the remainder never reach the text.
   */
  function StrfDeltaAsWritten(total: int): string
  {
    var days := total / 86400;
    var secs := total % 86400;
    (if days != 0 then Quantity(days, "day") + " " else "")
    + Quantity(secs / 60 % 60, "minute") + " "
    + Quantity(secs % 60, "second")
  }

  /**
   * Adding an hour that does not roll over into the next day leaves the
   * as-written text unchanged: the rendered text cannot tell the two apart.
   */
  lemma StrfDeltaDropsHours(total: int)
    requires total % SecondsPerDay < SecondsPerDay - SecondsPerHour
    ensures StrfDeltaAsWritten(total + SecondsPerHour) == StrfDeltaAsWritten(total)
    ensures Parts(total + SecondsPerHour) != Parts(total)
  {
    HourWithinDay(total);
    HourOfRemainder(total % 86400);
  }

  /** An hour that stays within the day changes neither the day count nor anything but the remainder. */
  lemma HourWithinDay(total: int)
    requires total % 86400 < 86400 - 3600
    ensures (total + 3600) / 86400 == total / 86400
    ensures (total + 3600) % 86400 == total % 86400 + 3600
  {
  }

  /** One more hour in the remainder moves only its hour count. */
  lemma HourOfRemainder(r: int)
    requires 0 <= r
    ensures (r + 3600) / 60 % 60 == r / 60 % 60
    ensures (r + 3600) % 60 == r % 60
    ensures (r + 3600) / 3600 == r / 3600 + 1
  {
    assert (r + 3600) / 60 == r / 60 + 60;
  }

  /**
   * A one-hour schedule is reported exactly like one due at once; with the
   * hour field the two are told apart.
   */
  lemma StrfDeltaAsWrittenOneHour()
    ensures StrfDeltaAsWritten(SecondsPerHour) == StrfDeltaAsWritten(0)
    ensures StrfDelta(SecondsPerHour) != StrfDelta(0)
  {
    StrfDeltaDropsHours(0);
    StrfDeltaInjective(SecondsPerHour, 0);
  }

  /** `strfdelta` with the hour field the minute arithmetic (`// 60 % 60`) presupposes. */
  function StrfDelta(total: int): (r: string)
    ensures |r| > 0
  {
    RenderParts(Parts(total))
  }

  function RenderParts(p: DeltaParts): (r: string)
    ensures |r| > 0
  {
    (if p.days != 0 then Quantity(p.days, "day") + " " else "")
    + Quantity(p.hours, "hour") + " "
    + Quantity(p.minutes, "minute") + " "
    + Quantity(p.seconds, "second")
  }

  /** A quantity is two words: the number and the unit. */
  lemma {:induction false} WordsOfQuantity(n: int, unit: string, rest: string)
    requires ' ' !in unit
    ensures ' ' !in UnitWord(n, unit)
    ensures Words(Quantity(n, unit)) == [IntText(n), UnitWord(n, unit)]
    ensures Words(Quantity(n, unit) + " " + rest) == [IntText(n), UnitWord(n, unit)] + Words(rest)
  {
    IntTextHasNoSpace(n);
    assert ' ' !in UnitWord(n, unit);
    WordsOfPair(IntText(n), UnitWord(n, unit));
    assert Quantity(n, unit) + " " + rest == IntText(n) + " " + (UnitWord(n, unit) + " " + rest);
    WordsCons(IntText(n), UnitWord(n, unit) + " " + rest);
    WordsCons(UnitWord(n, unit), rest);
  }

  /** The hours, minutes and seconds of a rendering. */
  function ClockText(p: DeltaParts): string
  {
    Quantity(p.hours, "hour") + " " + Quantity(p.minutes, "minute") + " " + Quantity(p.seconds, "second")
  }

  lemma {:induction false} WordsOfClockText(p: DeltaParts)
    ensures Words(ClockText(p))
         == [IntText(p.hours), UnitWord(p.hours, "hour"), IntText(p.minutes), UnitWord(p.minutes, "minute"),
             IntText(p.seconds), UnitWord(p.seconds, "second")]
  {
    var qm := Quantity(p.minutes, "minute");
    var qs := Quantity(p.seconds, "second");
    WordsOfQuantity(p.seconds, "second", "");
    WordsOfQuantity(p.minutes, "minute", qs);
    assert ClockText(p) == Quantity(p.hours, "hour") + " " + (qm + " " + qs);
    WordsOfQuantity(p.hours, "hour", qm + " " + qs);
  }

  /** The words of a rendered duration: each field's number followed by its unit. */
  lemma {:induction false} WordsOfRendering(p: DeltaParts)
    ensures Words(RenderParts(p))
         == (if p.days != 0 then [IntText(p.days), UnitWord(p.days, "day")] else []) + Words(ClockText(p))
  {
    RenderPartsAroundClock(p);
    if p.days != 0 {
      WordsOfQuantity(p.days, "day", ClockText(p));
    }
  }

  /** A rendering is the optional days quantity in front of the clock text. */
  lemma RenderPartsAroundClock(p: DeltaParts)
    ensures RenderParts(p) == (if p.days != 0 then Quantity(p.days, "day") + " " + ClockText(p) else ClockText(p))
  {
    var d := if p.days != 0 then Quantity(p.days, "day") + " " else "";
    Regroup(d, Quantity(p.hours, "hour"), Quantity(p.minutes, "minute"), Quantity(p.seconds, "second"));
  }

  /** Re-association of the rendering's concatenations. */
  lemma Regroup(d: string, h: string, m: string, s: string)
    ensures d + h + " " + m + " " + s == d + (h + " " + m + " " + s)
    ensures "" + (h + " " + m + " " + s) == h + " " + m + " " + s
  {
  }

  /** Distinct parts render to distinct texts. */
  lemma {:induction false} RenderPartsInjective(p: DeltaParts, q: DeltaParts)
    requires RenderParts(p) == RenderParts(q)
    ensures p == q
  {
    WordsOfRendering(p);
    WordsOfRendering(q);
    WordsOfClockText(p);
    WordsOfClockText(q);
    var w := Words(RenderParts(p));
    assert (p.days != 0) == (q.days != 0) by {
      assert |w| == (if p.days != 0 then 8 else 6) == (if q.days != 0 then 8 else 6);
    }
    if p.days != 0 {
      assert w[0] == IntText(p.days) == IntText(q.days);
      IntTextInjective(p.days, q.days);
      assert w[2..] == Words(ClockText(p)) == Words(ClockText(q));
    } else {
      assert w == Words(ClockText(p)) == Words(ClockText(q));
    }
    ClockTextInjective(p, q);
  }

  /** The clock texts of two parts have the same words only when their hours, minutes and seconds agree. */
  lemma {:induction false} ClockTextInjective(p: DeltaParts, q: DeltaParts)
    requires Words(ClockText(p)) == Words(ClockText(q))
    ensures p.hours == q.hours && p.minutes == q.minutes && p.seconds == q.seconds
  {
    WordsOfClockText(p);
    WordsOfClockText(q);
    var w := Words(ClockText(p));
    assert w[0] == IntText(p.hours) == IntText(q.hours);
    IntTextInjective(p.hours, q.hours);
    assert w[2] == IntText(p.minutes) == IntText(q.minutes);
    IntTextInjective(p.minutes, q.minutes);
    assert w[4] == IntText(p.seconds) == IntText(q.seconds);
    IntTextInjective(p.seconds, q.seconds);
  }

  /** With the hour field, the rendering tells every two durations apart. */
  lemma StrfDeltaInjective(a: int, b: int)
    ensures StrfDelta(a) == StrfDelta(b) <==> a == b
  {
    if StrfDelta(a) == StrfDelta(b) {
      RenderPartsInjective(Parts(a), Parts(b));
    }
  }
}

=== FILE: ingestion.dfy ===
/**
 * The two message events. Both log the message; a newly posted message by
 * the controlled account that starts with the command prefix is also turned
 * into a command word and a parameter text and handed to the dispatcher.
 */
module Ingestion {
  import opened Base
  import opened Text
  import opened Registry
  import opened Dispatcher
  import opened LogStore

  /** The configured command prefix and the id of the account the bot runs as. */
  datatype Config = Config(prefix: string, selfId: nat)

  /** A posted message is a command when the bot's own account wrote it and it starts with the prefix. */
  predicate Eligible(cfg: Config, m: Snapshot)
  {
    m.author.id == cfg.selfId && StartsWith(m.content, cfg.prefix)
  }

  /** Commands are checked against the guild flag in guild text channels, against the pm flag elsewhere. */
  predicate InGuild(c: Channel)
  {
    c.TextChannel?
  }

  /** No ASCII capital letters. */
  predicate LowerCase(s: string)
  {
    forall i :: 0 <= i < |s| ==> !('A' <= s[i] <= 'Z')
  }

  /** The command word: after the prefix and surrounding whitespace, up to the first space, lower-cased. */
  function CommandWord(prefix: string, content: string): (w: string)
    requires StartsWith(content, prefix)
    ensures LowerCase(w) && ' ' !in w
  {
    var head := FirstToken(Strip(content[|prefix|..], Whitespace), ' ');
    assert forall i :: 0 <= i < |head| ==> head[i] != ' ';
    Lower(head)
  }

  /**
   * The parameter text: everything after the first space of the whole
   * message, surrounding whitespace removed. It is cut from the message
   * itself, not from the text after the prefix.
   */
  function CommandParams(content: string): string
  {
    AfterFirstToken(Strip(content, Whitespace), ' ')
  }

  /** What an event leaves behind: the updated log and, for a command, how its dispatch ended. */
  datatype Effect = Effect(store: Store, dispatched: Option<Outcome>)

  /** `on_message`: log the message as posted; dispatch it at depth 0 exactly when it is a command. */
  function OnMessage(cfg: Config, reg: Registry, aliases: map<string, string>, store: Store, m: Snapshot)
    : (e: Effect)
    ensures e.store == Record(store, m, Created, m.createdAt)
    ensures e.dispatched.Some? <==> Eligible(cfg, m)
    ensures Eligible(cfg, m) ==>
              e.dispatched == Some(Dispatch(reg, aliases, InGuild(m.channel), CommandWord(cfg.prefix, m.content),
                                            CommandParams(m.content), 0))
    ensures e.dispatched.Some? && e.dispatched.value.Invoke? && e.dispatched.value.depth == 0
            ==> LowerCase(e.dispatched.value.command)
  {
    var logged := Record(store, m, Created, m.createdAt);
    if !Eligible(cfg, m) then Effect(logged, None)
    else
      var word := CommandWord(cfg.prefix, m.content);
      Effect(logged, Some(Dispatch(reg, aliases, InGuild(m.channel), word, CommandParams(m.content), 0)))
  }

  /**
   * The time `on_message_edit` stamps on the edit row as written: the
   * previous version's edit time, or the creation time when the message had
   * not been edited before.
   */
  function EditTimeAsWritten(before: Snapshot, after: Snapshot): int
  {
    if before.editedAt.Some? then before.editedAt.value else after.createdAt
  }

  /**
   * `on_message_edit` as written: log the new version as an edit row stamped
   * with `EditTimeAsWritten`; edits are never dispatched.
   */
  function OnMessageEdit(store: Store, before: Snapshot, after: Snapshot): (e: Effect)
    ensures e.dispatched == None
    ensures e.store == Record(store, after, Edited, EditTimeAsWritten(before, after))
    ensures |e.store.messages| == |store.messages| + 1
    ensures e.store.messages[..|store.messages|] == store.messages
    ensures e.store.messages[|store.messages|].kind == Edited
    ensures e.store.messages[|store.messages|].message == after.id
    ensures e.store.messages[|store.messages|].text == LoggedText(after)
  {
    Effect(Record(store, after, Edited, EditTimeAsWritten(before, after)), None)
  }

  /**
   * A message created at 100 and first edited at 160: the handler as written
   * logs the edit at 100, the corrected one at 160.
   */
  lemma EditTimeAsWrittenLags(store: Store)
    ensures var before := Snapshot(7, Author(1, "me"), GroupChannel(3, "chat"), None, "helo", [], 100, None);
            var after := before.(content := "hello", editedAt := Some(160));
            && OnMessageEdit(store, before, after).store.messages[|store.messages|].time == 100
            && CorrectedOnMessageEdit(store, after).store.messages[|store.messages|].time == 160
  {
  }

  /**
   * As written, every edit row lags one edit behind: it carries the time the
   * corrected handler gave the previous version of the same message.
   */
  lemma EditRowLagsOneEdit(store: Store, before: Snapshot, after: Snapshot)
    requires before.createdAt == after.createdAt
    ensures OnMessageEdit(store, before, after).store.messages[|store.messages|].time
         == CorrectedOnMessageEdit(store, before).store.messages[|store.messages|].time
  {
  }

  /** The time of the edit being logged: the new version's edit time, or its creation time if it carries none. */
  function EditTime(after: Snapshot): int
  {
    if after.editedAt.Some? then after.editedAt.value else after.createdAt
  }

  /** `on_message_edit` with the edit row stamped at the time of the edit it records. */
  function CorrectedOnMessageEdit(store: Store, after: Snapshot): (e: Effect)
    ensures e.dispatched == None
    ensures e.store == Record(store, after, Edited, EditTime(after))
    ensures |e.store.messages| == |store.messages| + 1
    ensures e.store.messages[..|store.messages|] == store.messages
    ensures e.store.messages[|store.messages|].kind == Edited
    ensures e.store.messages[|store.messages|].message == after.id
    ensures e.store.messages[|store.messages|].text == LoggedText(after)
  {
    Effect(Record(store, after, Edited, EditTime(after)), None)
  }

  /** Corrected, the edit row carries the time of the edit whatever the previous version said. */
  lemma EditRowCarriesEditTime(store: Store, after: Snapshot, t: int)
    requires after.editedAt == Some(t)
    ensures CorrectedOnMessageEdit(store, after).store.messages[|store.messages|].time == t
  {
  }

  /** Posting and then editing a message logs two rows for it, the posted text first, the edited one second. */
  lemma PostThenEdit(cfg: Config, reg: Registry, aliases: map<string, string>, store: Store,
                     m: Snapshot, edited: Snapshot)
    requires edited.id == m.id
    ensures var posted := OnMessage(cfg, reg, aliases, store, m).store;
            var final := OnMessageEdit(posted, m, edited).store;
            && |final.messages| == |store.messages| + 2
            && final.messages[..|store.messages|] == store.messages
            && final.messages[|store.messages|].kind == Created
            && final.messages[|store.messages| + 1].kind == Edited
            && final.messages[|store.messages|].message == final.messages[|store.messages| + 1].message == m.id
            && final.messages[|store.messages|].text == LoggedText(m)
            && final.messages[|store.messages| + 1].text == LoggedText(edited)
  {
    var posted := OnMessage(cfg, reg, aliases, store, m).store;
    var final := OnMessageEdit(posted, m, edited).store;
    assert final.messages[..|posted.messages|] == posted.messages;
    assert final.messages[|store.messages|] == posted.messages[|store.messages|];
  }

  /**
   * `<prefix><word> <rest>` runs `word`, lower-cased, with `rest` as its
   * parameters, when the line has no surrounding whitespace and neither the
   * prefix nor the word contains a space.
   */
  lemma {:induction false} CommandLine(prefix: string, word: string, rest: string)
    requires |prefix| > 0 && prefix[0] !in Whitespace && ' ' !in prefix
    requires |word| > 0 && word[0] !in Whitespace && ' ' !in word
    requires |rest| > 0 && rest[|rest| - 1] !in Whitespace
    ensures StartsWith(prefix + word + " " + rest, prefix)
    ensures CommandWord(prefix, prefix + word + " " + rest) == Lower(word)
    ensures CommandParams(prefix + word + " " + rest) == rest
  {
    var content := prefix + word + " " + rest;
    assert content[..|prefix|] == prefix;
    assert content[|prefix|..] == word + [' '] + rest;
    TokenSplit(word, rest, ' ');
    assert content == (prefix + word) + [' '] + rest;
    TokenSplit(prefix + word, rest, ' ');
  }

  /**
   * A space after the prefix does not change the command word, but the
   * parameters are cut from the whole line, so `<prefix> word` runs `word`
   * with `word` itself as its parameter text.
   */
  lemma {:induction false} SpaceAfterPrefix(prefix: string, word: string)
    requires |prefix| > 0 && prefix[0] !in Whitespace && ' ' !in prefix
    requires |word| > 0 && word[0] !in Whitespace && word[|word| - 1] !in Whitespace && ' ' !in word
    ensures StartsWith(prefix + " " + word, prefix)
    ensures CommandWord(prefix, prefix + " " + word) == Lower(word)
    ensures CommandParams(prefix + " " + word) == word
  {
    var content := prefix + " " + word;
    assert content[..|prefix|] == prefix;
    assert content[|prefix|..] == " " + word + "";
    StripFramed(" ", word, "", Whitespace);
    TokenAlone(word, ' ');
    assert content == prefix + [' '] + word;
    TokenSplit(prefix, word, ' ');
  }

  /** A message by any other account is logged and never dispatched. */
  lemma OthersAreOnlyLogged(cfg: Config, reg: Registry, aliases: map<string, string>, store: Store, m: Snapshot)
    requires m.author.id != cfg.selfId
    ensures OnMessage(cfg, reg, aliases, store, m) == Effect(Record(store, m, Created, m.createdAt), None)
  {
  }
}

=== FILE: logstore.dfy ===
/**
 * The message log kept by the event handlers and read back by `seen`. The
 * `messages` table is an append-only sequence whose row ids count from 1; the
 * `users`, `guilds`, `channels` and `nicks` tables are keyed maps that every
 * event overwrites (SQLite's `INSERT OR REPLACE`, last write wins).
 */
module LogStore {
  import opened Base
  import opened Text

  /** The `type` column: 0 for a message as posted, 1 for an edited version. */
  datatype Kind = Created | Edited

  datatype Row = Row(id: nat, guild: Option<nat>, channel: nat, message: nat, user: nat,
                     text: string, time: int, kind: Kind)

  datatype ChannelRow = ChannelRow(guild: Option<nat>, name: string)

  /** The five tables. A `nicks` value of `None` is a member without a nickname (a NULL `nick`). */
  datatype Store = Store(messages: seq<Row>, guilds: map<nat, string>, channels: map<nat, ChannelRow>,
                         users: map<nat, string>, nicks: map<(nat, nat), Option<string>>)

  datatype Author = Author(id: nat, name: string)

  /** The three kinds of channel a message can arrive in. */
  datatype Channel =
    | TextChannel(id: nat, name: string, guild: nat, guildName: string)
    | DMChannel(id: nat, recipientName: string, recipientDiscriminator: string)
    | GroupChannel(id: nat, name: string)

  /**
   * What the event handlers read from a message. `memberNick` is `None` when
   * the author is not a member of the guild (the nick lookup fails and is
   * skipped), `Some(None)` for a member without a nickname. Times are in
   * seconds, as the handlers store them.
   */
  datatype Snapshot = Snapshot(id: nat, author: Author, channel: Channel, memberNick: Option<Option<string>>,
                               content: string, attachmentUrls: seq<string>, createdAt: int, editedAt: Option<int>)

  /** Every row points into the identity tables, as the foreign keys demand. */
  predicate RowLinked(store: Store, row: Row)
  {
    && row.channel in store.channels
    && row.user in store.users
    && (row.guild.Some? ==> row.guild.value in store.guilds)
  }

  /** Row ids count up from 1, every foreign key resolves. */
  predicate WellFormed(store: Store)
  {
    && (forall i :: 0 <= i < |store.messages| ==> store.messages[i].id == i + 1)
    && (forall i :: 0 <= i < |store.messages| ==> RowLinked(store, store.messages[i]))
    && (forall c :: c in store.channels && store.channels[c].guild.Some? ==> store.channels[c].guild.value in store.guilds)
    && (forall k :: k in store.nicks ==> k.0 in store.guilds && k.1 in store.users)
  }

  /** The stored text: the content, one space, then the attachment URLs separated by spaces. */
  function LoggedText(m: Snapshot): (text: string)
    ensures |text| > |m.content|
    ensures text[..|m.content|] == m.content && text[|m.content|] == ' '
    ensures text[|m.content| + 1..] == Join(m.attachmentUrls, ' ')
  {
    m.content + " " + Join(m.attachmentUrls, ' ')
  }

  /** The guild a message belongs to, if it was posted in a guild. */
  function GuildOf(c: Channel): Option<nat>
  {
    if c.TextChannel? then Some(c.guild) else None
  }

  /** The stored channel name: the channel name, or `name#discriminator` of a private chat's other side. */
  function ChannelName(c: Channel): string
  {
    match c
    case TextChannel(_, name, _, _) => name
    case DMChannel(_, recipient, discriminator) => recipient + "#" + discriminator
    case GroupChannel(_, name) => name
  }

  /**
   * The writes of one create or edit event: refresh the author, the guild,
   * the nickname and the channel, then append one message row stamped `time`.
   */
  function Record(store: Store, m: Snapshot, kind: Kind, time: int): (after: Store)
    // The log grows by exactly one row and earlier rows stay as they were.
    ensures |after.messages| == |store.messages| + 1
    ensures after.messages[..|store.messages|] == store.messages
    ensures var row := after.messages[|store.messages|];
            && row.id == |store.messages| + 1 && row.message == m.id && row.user == m.author.id
            && row.channel == m.channel.id && row.guild == GuildOf(m.channel)
            && row.text == LoggedText(m) && row.time == time && row.kind == kind
    // Identity tables: the event's entries are overwritten, nothing is removed, nothing else changes.
    ensures after.users == store.users[m.author.id := m.author.name]
    ensures after.channels == store.channels[m.channel.id := ChannelRow(GuildOf(m.channel), ChannelName(m.channel))]
    ensures m.channel.TextChannel? ==> after.guilds == store.guilds[m.channel.guild := m.channel.guildName]
    ensures !m.channel.TextChannel? ==> after.guilds == store.guilds && after.nicks == store.nicks
    ensures m.channel.TextChannel? && m.memberNick.Some? ==>
              after.nicks == store.nicks[(m.channel.guild, m.author.id) := m.memberNick.value]
    ensures m.memberNick.None? ==> after.nicks == store.nicks
  {
    var c := m.channel;
    var guilds := if c.TextChannel? then store.guilds[c.guild := c.guildName] else store.guilds;
    var nicks := if c.TextChannel? && m.memberNick.Some?
                 then store.nicks[(c.guild, m.author.id) := m.memberNick.value]
                 else store.nicks;
    var row := Row(|store.messages| + 1, GuildOf(c), c.id, m.id, m.author.id, LoggedText(m), time, kind);
    Store(store.messages + [row], guilds, store.channels[c.id := ChannelRow(GuildOf(c), ChannelName(c))],
          store.users[m.author.id := m.author.name], nicks)
  }

  /** Recording an event keeps the log well formed. */
  lemma RecordKeepsWellFormed(store: Store, m: Snapshot, kind: Kind, time: int)
    requires WellFormed(store)
    ensures WellFormed(Record(store, m, kind, time))
  {
    var after := Record(store, m, kind, time);
    forall i | 0 <= i < |after.messages|
      ensures after.messages[i].id == i + 1 && RowLinked(after, after.messages[i])
    {
      if i < |store.messages| {
        assert after.messages[i] == store.messages[i];
        assert RowLinked(store, store.messages[i]);
      }
    }
  }

  /* ---------------------------------------------------------------- seen */

  /**
   * A row `seen` can report for `user`: a guild message by that user whose
   * guild, channel, author and nickname rows all exist (the inner joins).
   */
  predicate Visible(store: Store, user: nat, row: Row)
  {
    && row.guild.Some? && row.user == user
    && row.guild.value in store.guilds && row.channel in store.channels && row.user in store.users
    && (row.guild.value, row.user) in store.nicks
  }

  /** Index of the latest visible row among the first `n` rows; a later row wins a tie. */
  function LatestBefore(store: Store, user: nat, n: nat): (r: Option<nat>)
    requires n <= |store.messages|
    ensures r.Some? ==> r.value < n && Visible(store, user, store.messages[r.value])
    ensures r.Some? ==> forall j :: r.value < j < n && Visible(store, user, store.messages[j])
                          ==> store.messages[j].time < store.messages[r.value].time
    ensures r.Some? ==> forall j :: 0 <= j < n && Visible(store, user, store.messages[j])
                          ==> store.messages[j].time <= store.messages[r.value].time
    ensures r.None? <==> forall j :: 0 <= j < n ==> !Visible(store, user, store.messages[j])
  {
    if n == 0 then None
    else
      var earlier := LatestBefore(store, user, n - 1);
      var row := store.messages[n - 1];
      if Visible(store, user, row) && (earlier.None? || store.messages[earlier.value].time <= row.time)
      then Some(n - 1)
      else earlier
  }

  /** A result row of `seen`, as its query selects it. */
  datatype Sighting = Sighting(time: int, guildName: string, channelName: string, name: string,
                               text: string, kind: Kind)

  /** The joined row: the nickname is shown when set, the user name otherwise. */
  function SightingOf(store: Store, row: Row): (s: Sighting)
    requires Visible(store, row.user, row)
    ensures s.name == (if store.nicks[(row.guild.value, row.user)].Some?
                       then store.nicks[(row.guild.value, row.user)].value else store.users[row.user])
  {
    var nick := store.nicks[(row.guild.value, row.user)];
    Sighting(row.time, store.guilds[row.guild.value], store.channels[row.channel].name,
             if nick.Some? then nick.value else store.users[row.user], row.text, row.kind)
  }

  /**
   * The replies of `seen`. `BindOverflow` is the error reply the resolver
   * sends when the query raises `OverflowError` for an id sqlite3 cannot bind.
   */
  datatype SeenReply = InvalidUser | BindOverflow | NotSeen(query: string) | LastSeen(sighting: Sighting)

  /** sqlite3 binds a Python `int` as a signed 64-bit INTEGER: 2^63 and above do not fit. */
  const BindLimit: int := 0x8000_0000_0000_0000

  /** The characters a mention wraps around a user id: `<@123>`, `<@!123>`. */
  const MentionChars: set<char> := {'<', '!', '@', '>'}

  /** The reply of `seen` for `user`. */
  function SeenUser(store: Store, user: nat, query: string): (r: SeenReply)
    ensures !r.InvalidUser? && !r.BindOverflow?
    ensures r.NotSeen? ==> r.query == query
    ensures r.LastSeen? <==> exists j :: 0 <= j < |store.messages| && Visible(store, user, store.messages[j])
    ensures r.NotSeen? <==> forall j :: 0 <= j < |store.messages| ==> !Visible(store, user, store.messages[j])
    ensures r.LastSeen? ==> exists j :: 0 <= j < |store.messages| && Visible(store, user, store.messages[j])
                              && r.sighting == SightingOf(store, store.messages[j])
                              && forall k :: 0 <= k < |store.messages| && Visible(store, user, store.messages[k])
                                   ==> store.messages[k].time <= store.messages[j].time
  {
    match LatestBefore(store, user, |store.messages|)
    case None => NotSeen(query)
    case Some(j) => LastSeen(SightingOf(store, store.messages[j]))
  }

  /**
   * Running the query of `seen` for `user`: the id is bound as a query
   * parameter, which raises `OverflowError` for an id of 2^63 or more; the
   * resolver catches that and replies with the error.
   */
  function Query(store: Store, user: nat, query: string): (r: SeenReply)
    ensures r.BindOverflow? <==> user >= BindLimit
    ensures user < BindLimit ==> r == SeenUser(store, user, query)
  {
    if user >= BindLimit then BindOverflow else SeenUser(store, user, query)
  }

  /**
   * `seen [user]`: the parameter, with mention characters stripped from both
   * ends, is a user id; an empty parameter means the asking author.
   */
  function Seen(store: Store, asker: nat, parameters: string): (r: SeenReply)
    ensures r.InvalidUser? <==> Strip(parameters, MentionChars) != "" && !AllDigits(Strip(parameters, MentionChars))
    ensures Strip(parameters, MentionChars) == "" ==> (r.BindOverflow? <==> asker >= BindLimit)
    ensures Strip(parameters, MentionChars) != "" && AllDigits(Strip(parameters, MentionChars))
            ==> (r.BindOverflow? <==> DecimalValue(Strip(parameters, MentionChars)) >= BindLimit)
    ensures r.NotSeen? ==> r.query == parameters
  {
    var target := Strip(parameters, MentionChars);
    if target == "" then Query(store, asker, parameters)
    else if !AllDigits(target) then InvalidUser
    else Query(store, DecimalValue(target), parameters)
  }

  /** Without a parameter, `seen` looks up the asker. */
  lemma SeenWithoutParameter(store: Store, asker: nat)
    ensures Seen(store, asker, "") == Query(store, asker, "")
  {
  }

  /**
   * An id that does not fit a signed 64-bit integer, such as
   * 9223372036854775808, gets the error reply, whatever the log holds.
   */
  lemma SeenOfHugeId(store: Store, asker: nat, user: nat)
    requires user >= BindLimit
    ensures Seen(store, asker, NatText(user)) == BindOverflow
  {
    SeenBareId(store, asker, user);
  }

  /** An id wrapped in mention characters looks up that id. */
  lemma SeenWrappedId(store: Store, asker: nat, user: nat, before: string, after: string)
    requires forall j :: 0 <= j < |before| ==> before[j] in MentionChars
    requires forall j :: 0 <= j < |after| ==> after[j] in MentionChars
    ensures Seen(store, asker, before + NatText(user) + after)
         == Query(store, user, before + NatText(user) + after)
  {
    var t := NatText(user);
    assert IsDigit(t[0]) && IsDigit(t[|t| - 1]);
    StripFramed(before, t, after, MentionChars);
    SeenOfId(store, asker, user, before + t + after);
  }

  /** A parameter that strips to the decimal text of an id looks up that id. */
  lemma SeenOfId(store: Store, asker: nat, user: nat, parameters: string)
    requires Strip(parameters, MentionChars) == NatText(user)
    ensures Seen(store, asker, parameters) == Query(store, user, parameters)
  {
    NatTextValue(user);
  }

  /** A mention `<@id>` or `<@!id>` and the bare id all look up the same user. */
  lemma SeenMentionForms(store: Store, asker: nat, user: nat)
    ensures Seen(store, asker, NatText(user)) == Query(store, user, NatText(user))
    ensures Seen(store, asker, "<@" + NatText(user) + ">") == Query(store, user, "<@" + NatText(user) + ">")
    ensures Seen(store, asker, "<@!" + NatText(user) + ">") == Query(store, user, "<@!" + NatText(user) + ">")
  {
    SeenBareId(store, asker, user);
    SeenMention(store, asker, user, "<@");
    SeenMention(store, asker, user, "<@!");
  }

  /** The bare id looks up that id. */
  lemma SeenBareId(store: Store, asker: nat, user: nat)
    ensures Seen(store, asker, NatText(user)) == Query(store, user, NatText(user))
  {
    SeenWrappedId(store, asker, user, "", "");
    assert "" + NatText(user) + "" == NatText(user);
  }

  /** A mention, with or without the nickname mark `!`, looks up the mentioned id. */
  lemma SeenMention(store: Store, asker: nat, user: nat, opening: string)
    requires opening == "<@" || opening == "<@!"
    ensures Seen(store, asker, opening + NatText(user) + ">") == Query(store, user, opening + NatText(user) + ">")
  {
    assert forall j :: 0 <= j < |opening| ==> opening[j] in MentionChars;
    SeenWrappedId(store, asker, user, opening, ">");
  }

  /**
   * A guild message by a member, logged no earlier than anything already in
   * the log, is what `seen` reports for its author next.
   */
  lemma {:induction false} SeenAfterRecord(store: Store, m: Snapshot, kind: Kind, time: int, query: string)
    requires m.channel.TextChannel? && m.memberNick.Some?
    requires forall j :: 0 <= j < |store.messages| ==> store.messages[j].time <= time
    ensures var after := Record(store, m, kind, time);
            var name := if m.memberNick.value.Some? then m.memberNick.value.value else m.author.name;
            && SeenUser(after, m.author.id, query)
               == LastSeen(Sighting(time, m.channel.guildName, m.channel.name, name, LoggedText(m), kind))
            && Query(after, m.author.id, query)
               == if m.author.id < BindLimit
                  then LastSeen(Sighting(time, m.channel.guildName, m.channel.name, name, LoggedText(m), kind))
                  else BindOverflow
  {
    var after := Record(store, m, kind, time);
    var n := |store.messages|;
    assert Visible(after, m.author.id, after.messages[n]);
    var earlier := LatestBefore(after, m.author.id, n);
    if earlier.Some? {
      assert after.messages[earlier.value] == store.messages[earlier.value];
    }
    assert LatestBefore(after, m.author.id, n + 1) == Some(n);
  }
}

=== FILE: registry.dfy ===
/**
 * The command registry that `SelfBot.cmd` builds at start-up: each command
 * name maps to its handler, its usage text and the two contexts it may be
 * used in; static aliases share the primary's handler and get a generated
 * "Alias for" usage text. Also the lookup the `help` command performs.
 */
module Registry {
  import opened Base
  import opened Text
  import opened Template

  /**
   * One registry entry: the handler (named by the function it calls), the
   * usage text (a template whose `{0}` is the invoking word), and whether the
   * command may be used in a guild text channel and in a private channel.
   */
  datatype CommandSpec = CommandSpec(handler: string, usage: string, guildOk: bool, pmOk: bool)

  type Registry = map<string, CommandSpec>

  /** The registry together with the static aliases that could not be added. */
  datatype Registered = Registered(registry: Registry, collisions: seq<string>)

  /** The usage text given to a static alias of `name`. */
  function StaticAliasUsage(prefix: string, name: string): string
  {
    "```\nAlias for " + prefix + name + ".```"
  }

  /**
   * Adds the static aliases one by one: an alias whose name is already taken
   * (by a command, by an earlier alias, or by the primary itself) is reported
   * and skipped; the others point at the primary's handler.
   */
  function AddStaticAliases(reg: Registry, aliases: seq<string>, spec: CommandSpec): (r: Registered)
    ensures r.registry.Keys == reg.Keys + (set a | a in aliases)
    ensures forall k :: k in reg ==> r.registry[k] == reg[k]
    ensures forall a :: a in aliases && a !in reg ==> r.registry[a] == spec
    decreases |aliases|
  {
    if |aliases| == 0 then Registered(reg, [])
    else
      var a := aliases[0];
      if a !in reg then AddStaticAliases(reg[a := spec], aliases[1..], spec)
      else
        var rest := AddStaticAliases(reg, aliases[1..], spec);
        Registered(rest.registry, [a] + rest.collisions)
  }

  /**
   * The reported static aliases are exactly the clashes: every alias whose
   * name was already taken is reported, and a reported alias was either
   * taken beforehand or listed twice.
   */
  lemma {:induction false} StaticAliasCollisions(reg: Registry, aliases: seq<string>, spec: CommandSpec)
    ensures var r := AddStaticAliases(reg, aliases, spec);
            && (forall a :: a in aliases && a in reg ==> a in r.collisions)
            && (forall c :: c in r.collisions ==> c in aliases && (c in reg || multiset(aliases)[c] >= 2))
    decreases |aliases|
  {
    if |aliases| > 0 {
      var a := aliases[0];
      assert aliases == [a] + aliases[1..];
      assert multiset(aliases) == multiset{a} + multiset(aliases[1..]);
      if a !in reg {
        StaticAliasCollisions(reg[a := spec], aliases[1..], spec);
      } else {
        StaticAliasCollisions(reg, aliases[1..], spec);
      }
    }
  }

  /**
   * `cmd(description, *aliases, guild=..., pm=...)` applied to a handler
   * named `name`: the primary name is (re)bound unconditionally, then the
   * static aliases are added without ever replacing an existing entry.
   */
  function Register(reg: Registry, prefix: string, name: string, usage: string,
                    staticAliases: seq<string>, guildOk: bool, pmOk: bool): (r: Registered)
    ensures name in r.registry && r.registry[name] == CommandSpec(name, usage, guildOk, pmOk)
    ensures r.registry.Keys == reg.Keys + {name} + (set a | a in staticAliases)
    ensures forall k :: k in reg && k != name ==> r.registry[k] == reg[k]
    ensures forall a :: a in staticAliases && a != name && a !in reg ==>
              r.registry[a] == CommandSpec(name, StaticAliasUsage(prefix, name), guildOk, pmOk)
    ensures forall a :: a in staticAliases && (a == name || a in reg) ==> a in r.collisions
    ensures forall c :: c in r.collisions ==>
              c in staticAliases && (c == name || c in reg || multiset(staticAliases)[c] >= 2)
  {
    var primary := CommandSpec(name, usage, guildOk, pmOk);
    StaticAliasCollisions(reg[name := primary], staticAliases, CommandSpec(name, StaticAliasUsage(prefix, name), guildOk, pmOk));
    AddStaticAliases(reg[name := primary], staticAliases, CommandSpec(name, StaticAliasUsage(prefix, name), guildOk, pmOk))
  }

  /** One `@bot.cmd(...)` decoration: the handler's name, usage, static aliases and contexts. */
  datatype Declaration = Declaration(name: string, usage: string, aliases: seq<string>, guildOk: bool, pmOk: bool)

  /** Every name a list of declarations asks for: primaries and static aliases. */
  function DeclaredNames(decls: seq<Declaration>): set<string>
    decreases |decls|
  {
    if |decls| == 0 then {}
    else
      var d := decls[|decls| - 1];
      DeclaredNames(decls[..|decls| - 1]) + {d.name} + (set a | a in d.aliases)
  }

  /** Applies the declarations in program order, collecting every collision report. */
  function RegisterAll(reg: Registry, prefix: string, decls: seq<Declaration>): (r: Registered)
    ensures r.registry.Keys == reg.Keys + DeclaredNames(decls)
    decreases |decls|
  {
    if |decls| == 0 then Registered(reg, [])
    else
      var d := decls[|decls| - 1];
      var before := RegisterAll(reg, prefix, decls[..|decls| - 1]);
      var after := Register(before.registry, prefix, d.name, d.usage, d.aliases, d.guildOk, d.pmOk);
      Registered(after.registry, before.collisions + after.collisions)
  }

  /** When the declared names are distinct, each name is bound to its own declaration. */
  lemma {:induction false} RegisterAllBindsNames(reg: Registry, prefix: string, decls: seq<Declaration>)
    requires forall i, j :: 0 <= i < j < |decls| ==> decls[i].name != decls[j].name
    ensures forall i :: 0 <= i < |decls| ==>
              && decls[i].name in RegisterAll(reg, prefix, decls).registry
              && RegisterAll(reg, prefix, decls).registry[decls[i].name]
                 == CommandSpec(decls[i].name, decls[i].usage, decls[i].guildOk, decls[i].pmOk)
    decreases |decls|
  {
    if |decls| > 0 {
      var init := decls[..|decls| - 1];
      RegisterAllBindsNames(reg, prefix, init);
      forall i | 0 <= i < |decls| - 1
        ensures && decls[i].name in RegisterAll(reg, prefix, decls).registry
                && RegisterAll(reg, prefix, decls).registry[decls[i].name]
                   == CommandSpec(decls[i].name, decls[i].usage, decls[i].guildOk, decls[i].pmOk)
      {
        assert init[i] == decls[i];
      }
    }
  }

  /** The commands the program declares, in the order it declares them (usage texts verbatim). */
  const BuiltinCommands: seq<Declaration> := [
    Declaration("shutdown", "```\n{0} takes no arguments\n\nShuts the bot down.```", [], true, true),
    Declaration("ping", "```\n{0} takes no arguments\n\nTests the bot's connectivity.```", [], true, true),
    Declaration("longasync", "```\n{0} <async string>\n\nExecutes <async string> as a coroutine.```", ["async"], true, true),
    Declaration("shortasync", "```\n{0} <async string>\n\nExecutes <async string> as a coroutine.```", [], true, true),
    Declaration("silentasync", "```\n{0} <exec string>\n\nSilently executes <async string> as a coroutine.```", [], true, true),
    Declaration("longeval", "```\n{0} <evaluation string>\n\nEvaluates <evaluation string> using Python's eval() function and returns a result.```", ["eval"], true, true),
    Declaration("shorteval", "```\n{0} <evaluation string>\n\nEvaluates <evaluation string> using Python's eval() function and returns only the result.```", [], true, true),
    Declaration("silenteval", "```\n{0} <evaluation string>\n\nEvaluates <evaluation string> using Python's eval() function. Mainly used for coroutines.```", [], true, true),
    Declaration("longexec", "```\n{0} <exec string>\n\nExecutes <exec string> using Python's exec() function.```", ["exec"], true, true),
    Declaration("shortexec", "```\n{0} <exec string>\n\nExecutes <exec string> using Python's exec() function.```", [], true, true),
    Declaration("silentexec", "```\n{0} <exec string>\n\nSilently executes <exec string> using Python's exec() function.```", [], true, true),
    Declaration("longquery", "```\n{0} <string>\n\nQueries the log database.```", ["query", "sql"], true, true),
    Declaration("shortquery", "```\n{0} <string>\n\nQueries the log database.```", [], true, true),
    Declaration("silentquery", "```\n{0} <string>\n\nQueries the log database.```", [], true, true),
    Declaration("longshell", "```\n{0} <string>\n\nRuns a shell command.```", ["shell", "bash"], true, true),
    Declaration("shortshell", "```\n{0} <string>\n\nRuns a shell command.```", [], true, true),
    Declaration("silentshell", "```\n{0} <string>\n\nRuns a shell command.```", [], true, true),
    Declaration("userinfo", "```\n{0} [<user>]\n\nDisplays information about [<user>].```", ["uinfo"], true, true),
    Declaration("guildinfo", "```\n{0} takes no arguments\n\nDisplays information about the server this command was used in.```", ["ginfo"], true, false),
    Declaration("removeallrole", "```\n{0} <role name>\n\nRemoves <role name> from all members with that role.```", ["rar"], true, false),
    Declaration("changegame", "```\n{0} [<game>]\n\nChanges your Playing... message to [<game>] or unsets it.```", [], true, true),
    Declaration("changestatus", "```\n{0} <status>\n\nChanges your status. Status must be one of: online, idle, dnd, invisible.```", [], true, true),
    Declaration("role", "```\n{0} <add | remove> <mention1 [mention2 ...]> <role name>\n\nAdds or removes <role name> from each member in <mentions>.```", [], true, false),
    Declaration("help", "```\n{0} <command>\n\nDisplays hopefully helpful information on <command>. Try {0}list for a listing of commands.```", [], true, true),
    Declaration("listcmds", "```\n{0} takes no arguments\n\nDisplays a listing of commands.```", ["list"], true, true),
    Declaration("reply", "```\n{0} <message>\n\nReplies with <message>. Use with aliases for more fun!```", [], true, true),
    Declaration("embed", "```\n{0} <title> <description> <colour> <footer> <image url> [[<field title> <field content>]...]\n\nCreates an embed message```", [], true, true),
    Declaration("say", "```\n{0} <target> <message>\n\nSends <message> to <target>.```", [], true, true),
    Declaration("echo", "```\n{0} <message>\n\nSends <message> to the same channel the command was used in.```", [], true, true),
    Declaration("alias", "```\n{0} <add | edit | remove | list | show> <alias name> [command string]\n\nManipulates aliases.```", [], true, true),
    Declaration("scheduler", "```\n{0} <add | remove | list | show> <id or date string> [command string]\n\nSchedules commands. Date string is in the format #d#h#m#s, corresponding to days, hours, minutes, and seconds. You may omit up to 3 of the aforementioned categories.```", [], true, true),
    Declaration("timer", "```\n{0} <date string>\n\nDisplays a running timer. Date string is in the format #d#h#m#s, corresponding to days, hours, minutes, and seconds. You may omit up to 3 of the aforementioned categories.```", [], true, true),
    Declaration("purge", "```\n{0} <number of messages>\n\nPurges messages from the current channel.```", [], true, true),
    Declaration("react", "```\n{0} <string>\n\nReacts using Regional Indicator Symbol Letters.```", [], true, true),
    Declaration("selfdestruct", "```\n{0} <date string> <text>\n\nGenerates a self destructing message.```", [], true, true),
    Declaration("move", "```\n{0} <source> <target>\n\nMoves users from one voice channel to another.```", [], true, false),
    Declaration("seen", "```\n{0} [user]\n\nDisplays seen information about [<user>].```", [], true, true),
    Declaration("choose", "```\n{0} [user]\n\nPicks between several choices.```", [], true, true),
    Declaration("stats", "```\n{0} [channel [user]]\n\n Get stats about the server or a channel```", [], true, false),
    Declaration("topusers", "```\n{0} [channel [user]]\n\n Get stats about the server or a channel```", [], true, false),
    Declaration("topchans", "```\n{0} [user]\n\n Get stats about the server or a user```", [], true, false)
  ]

  /** The registry the program runs with, for a given configured prefix. */
  function BuiltinRegistry(prefix: string): Registered
  {
    RegisterAll(map[], prefix, BuiltinCommands)
  }

  /* ---------------------------------------------------------------- help */

  /** What `help` replies: the formatted usage text, or that the command does not exist. */
  datatype HelpReply = Usage(text: string) | NoSuchCommand(name: string)

  /**
   * The `help` command: an empty argument asks about `help` itself; the
   * argument is looked up verbatim (no case folding, no trimming); the usage
   * template is filled with the word the user typed to invoke help. A
   * template that cannot be filled raises inside the handler.
   */
  function Help(reg: Registry, parameters: string, invokedAs: string): (r: Result<HelpReply, FormatError>)
    ensures var target := if parameters == "" then "help" else parameters;
            && (r == Ok(NoSuchCommand(target)) <==> target !in reg)
            && (r.Ok? && r.value.Usage? ==> target in reg && Format(reg[target].usage, [invokedAs]) == Ok(r.value.text))
            && (target in reg && BraceFree(reg[target].usage) ==> r == Ok(Usage(reg[target].usage)))
            && (target in reg && Format(reg[target].usage, [invokedAs]).Ok?
                ==> r == Ok(Usage(Format(reg[target].usage, [invokedAs]).value)))
            && (target in reg && Format(reg[target].usage, [invokedAs]).Err?
                ==> r == Err(Format(reg[target].usage, [invokedAs]).error))
  {
    var target := if parameters == "" then "help" else parameters;
    if target in reg then
      match Format(reg[target].usage, [invokedAs])
      case Ok(text) => Ok(Usage(text))
      case Err(e) => Err(e)
    else Ok(NoSuchCommand(target))
  }

  /** Asking for help on a static alias shows "Alias for <prefix><primary>." */
  lemma HelpOnStaticAlias(reg: Registry, prefix: string, name: string, usage: string,
                          staticAliases: seq<string>, guildOk: bool, pmOk: bool, a: string, invokedAs: string)
    requires a in staticAliases && a != name && a !in reg && a != ""
    requires BraceFree(prefix) && BraceFree(name)
    ensures Help(Register(reg, prefix, name, usage, staticAliases, guildOk, pmOk).registry, a, invokedAs)
            == Ok(Usage(StaticAliasUsage(prefix, name)))
  {
    var u := StaticAliasUsage(prefix, name);
    assert BraceFree(u) by {
      assert u == "```\nAlias for " + prefix + name + ".```";
      forall i | 0 <= i < |u| ensures !IsBrace(u[i]) {
        var head := "```\nAlias for ";
        if i < |head| {
        } else if i < |head| + |prefix| {
          assert u[i] == prefix[i - |head|];
        } else if i < |head| + |prefix| + |name| {
          assert u[i] == name[i - |head| - |prefix|];
        } else {
        }
      }
    }
  }
}

=== FILE: scheduler.dfy ===
/**
 * The `scheduler` command and the background loop that runs what it
 * schedules. Each task is keyed by an integer id one above the largest id in
 * use; it stores when it becomes due, the message that scheduled it, the
 * command line to run and the dispatch depth to run it at. Time is a whole
 * number of seconds.
 */
module Scheduler {
  import opened Base
  import opened Text
  import opened Duration
  import opened Registry
  import opened Dispatcher

  /** One scheduled command. */
  datatype Task = Task(fireTime: int, origin: Context, command: string, depth: nat)

  type Schedule = map<nat, Task>

  /** Every action word the handler accepts; anything else gets the usage text. */
  const Actions: set<string> := {"add", "+", "remove", "del", "delete", "-", "list", "show"}
  /** The words that schedule a new command. */
  const AddWords: set<string> := {"add", "+"}
  /** The words that cancel a scheduled command. */
  const RemoveWords: set<string> := {"remove", "del", "delete", "-"}
  /** The words whose one-word usage hint names an id. */
  const NamingWords: set<string> := {"show", "remove", "-", "del", "delete"}

  /** What the handler replies (the rendered texts are not modelled). */
  datatype SchedulerReply =
    | ShowUsage
    | Listed(ids: set<nat>)
    | NoSuchId(text: string)
    | Shown(id: nat, task: Task)
    | Deleted(id: nat)
    | Scheduled(id: nat, delay: nat, command: string)
    | Silent

  /** `text in map(str, schedule)`: the text is the decimal form of a scheduled id. */
  ghost predicate NamesId(schedule: Schedule, text: string)
  {
    exists n :: n in schedule && NatText(n) == text
  }

  /** A largest element of a non-empty finite set of naturals. */
  lemma {:induction false} LargestWitness(s: set<nat>) returns (m: nat)
    requires s != {}
    ensures m in s && forall k :: k in s ==> k <= m
  {
    var x :| x in s;
    if s == {x} {
      m := x;
    } else {
      var below := LargestWitness(s - {x});
      m := if x <= below then below else x;
      forall k | k in s
        ensures k <= m
      {
        if k != x {
          assert k in s - {x};
        }
      }
    }
  }

  /** A non-empty finite set of naturals has a largest element. */
  lemma HasLargest(s: set<nat>)
    requires s != {}
    ensures exists m :: m in s && forall k :: k in s ==> k <= m
  {
    var m := LargestWitness(s);
  }

  /** `max(s)`. */
  function Largest(s: set<nat>): (m: nat)
    requires s != {}
    ensures m in s
    ensures forall k :: k in s ==> k <= m
  {
    HasLargest(s);
    var m :| m in s && forall k :: k in s ==> k <= m;
    m
  }

  /** The id a new task gets: one above the largest id in use, or 0 when nothing is scheduled. */
  function NextId(schedule: Schedule): (id: nat)
    ensures id !in schedule
    ensures forall k :: k in schedule ==> k < id
    ensures |schedule| == 0 <==> id == 0
    ensures id > 0 ==> id - 1 in schedule
  {
    if |schedule| == 0 then 0 else Largest(schedule.Keys) + 1
  }

  /**
   * The handler once it has an action word and an id or date string `text`;
   * `rest` holds the remaining words.
   */
  function WithIdOrDelay(schedule: Schedule, origin: Context, action: string, text: string, rest: seq<string>,
                         now: int, depth: nat): (r: Handled<Schedule, SchedulerReply>)
    requires action in Actions
    ensures r.NameError? ==> r.name == "prefix"
    ensures r.Done? ==> !r.reply.ShowUsage? && !r.reply.Listed?
    ensures action in Actions - AddWords && !NamesId(schedule, text) ==> r == Done(schedule, NoSuchId(text))
    ensures r.Done? && (r.reply.NoSuchId? || r.reply.Silent?) ==> r.state == schedule
    ensures r.Done? && r.reply.Shown? ==>
              && r.reply.id in schedule && r.reply.task == schedule[r.reply.id] && r.state == schedule
              && |rest| == 0 && NatText(r.reply.id) == text
    ensures r.Done? && r.reply.Deleted? ==>
              && r.reply.id in schedule && r.state == schedule - {r.reply.id}
              && |rest| == 0 && NatText(r.reply.id) == text
    // Which two-word action does what.
    ensures |rest| == 0 && action == "show" && NamesId(schedule, text) ==> r.Done? && r.reply.Shown?
    ensures |rest| == 0 && action in RemoveWords && NamesId(schedule, text) ==> r.Done? && r.reply.Deleted?
    ensures r.Done? && r.reply.Shown? ==> action == "show"
    ensures r.Done? && r.reply.Deleted? ==> action in RemoveWords
    ensures r.Done? && r.reply.Silent? ==> action == "list" && |rest| == 0
    ensures |rest| >= 1 && (action in AddWords || NamesId(schedule, text)) ==> r.Done? && r.reply.Scheduled?
    ensures r.Done? && r.reply.Scheduled? ==> |rest| >= 1 && r == AddTask(schedule, origin, text, rest, now, depth)
  {
    DecimalTextMember(text, schedule.Keys);
    var known := IsCanonicalDecimal(text) && DecimalValue(text) in schedule;
    if !known && action !in AddWords then Done(schedule, NoSuchId(text))
    else if |rest| == 0 then
      if action in AddWords then NameError("prefix")
      else
        DecimalValueText(text);
        OnId(schedule, action, DecimalValue(text))
    else AddTask(schedule, origin, text, rest, now, depth)
  }

  /** A two-word line naming the scheduled id `id`: `show` reports it, `remove` deletes it, `list` does nothing. */
  function OnId(schedule: Schedule, action: string, id: nat): (r: Handled<Schedule, SchedulerReply>)
    requires action in Actions - AddWords && id in schedule
    ensures r.Done?
    ensures r.reply.Shown? <==> action == "show"
    ensures r.reply.Deleted? <==> action in RemoveWords
    ensures r.reply.Silent? <==> action == "list"
    ensures r.reply.Shown? ==> r == Done(schedule, Shown(id, schedule[id]))
    ensures r.reply.Deleted? ==> r == Done(schedule - {id}, Deleted(id))
    ensures r.reply.Silent? ==> r.state == schedule
  {
    if action == "show" then Done(schedule, Shown(id, schedule[id]))
    else if action in RemoveWords then Done(schedule - {id}, Deleted(id))
    else Done(schedule, Silent)
  }

  /**
   * Storing a new task: the date string `text` gives the delay, the
   * remaining words re-joined give the command line, the id is fresh and the
   * task runs one level deeper than the handler; the other tasks are kept.
   */
  function AddTask(schedule: Schedule, origin: Context, text: string, rest: seq<string>, now: int, depth: nat)
    : (r: Handled<Schedule, SchedulerReply>)
    ensures r.Done? && r.reply.Scheduled?
    ensures r.reply.id !in schedule && (forall k :: k in schedule ==> k < r.reply.id)
    ensures r.reply.delay == DurationSum(Strip(text, DurationStripChars))
    ensures r.reply.command == Join(rest, ' ')
    ensures r.state == schedule[r.reply.id := Task(now + r.reply.delay, origin, r.reply.command, depth + 1)]
  {
    var id := NextId(schedule);
    var command := Join(rest, ' ');
    var delay := DurationSum(Strip(text, DurationStripChars));
    Done(schedule[id := Task(now + delay, origin, command, depth + 1)], Scheduled(id, delay, command))
  }

  /**
   * The handler, run for message `origin` at time `now` and dispatch depth
   * `depth`. The delay of a new task is what `ConvDateString` computes for
   * the date string; the task runs one level deeper than the handler.
   * Usage hints that name the command prefix raise `NameError`, because no
   * such name exists where the handler runs.
   */
  function SchedulerCommand(schedule: Schedule, origin: Context, parameters: string, now: int, depth: nat)
    : (r: Handled<Schedule, SchedulerReply>)
    // The usage text is shown exactly for an unknown action, and then nothing changes.
    ensures r.Done? && r.reply.ShowUsage? <==> Words(parameters)[0] !in Actions
    ensures r.NameError? ==> r.name == "prefix" && Words(parameters)[0] in Actions
    ensures Words(parameters) == ["list"] ==> r == Done(schedule, Listed(schedule.Keys))
    // Every action but add needs the decimal text of a scheduled id.
    ensures |Words(parameters)| >= 2 && Words(parameters)[0] in Actions - AddWords
            && !NamesId(schedule, Words(parameters)[1])
            ==> r == Done(schedule, NoSuchId(Words(parameters)[1]))
    ensures r.Done? && (r.reply.ShowUsage? || r.reply.Listed? || r.reply.NoSuchId? || r.reply.Silent?)
            ==> r.state == schedule
    ensures r.Done? && r.reply.Shown? ==>
              && r.reply.id in schedule && r.reply.task == schedule[r.reply.id] && r.state == schedule
              && |Words(parameters)| == 2 && NatText(r.reply.id) == Words(parameters)[1]
    ensures r.Done? && r.reply.Deleted? ==>
              && r.reply.id in schedule && r.state == schedule - {r.reply.id}
              && |Words(parameters)| == 2 && NatText(r.reply.id) == Words(parameters)[1]
    // `show` reports a known id and `remove` deletes it; no other action does either.
    ensures |Words(parameters)| == 2 && Words(parameters)[0] == "show" && NamesId(schedule, Words(parameters)[1])
            ==> r.Done? && r.reply.Shown?
    ensures |Words(parameters)| == 2 && Words(parameters)[0] in RemoveWords && NamesId(schedule, Words(parameters)[1])
            ==> r.Done? && r.reply.Deleted?
    ensures r.Done? && r.reply.Shown? ==> Words(parameters)[0] == "show"
    ensures r.Done? && r.reply.Deleted? ==> Words(parameters)[0] in RemoveWords
    ensures r.Done? && r.reply.Silent? ==> |Words(parameters)| == 2 && Words(parameters)[0] == "list"
    // A three-word line schedules, whatever the action, once the id check passes.
    ensures |Words(parameters)| >= 3 && Words(parameters)[0] in Actions
            && (Words(parameters)[0] in AddWords || NamesId(schedule, Words(parameters)[1]))
            ==> r.Done? && r.reply.Scheduled?
    ensures r.Done? && r.reply.Scheduled? ==>
              |Words(parameters)| >= 3
              && r == AddTask(schedule, origin, Words(parameters)[1], Words(parameters)[2..], now, depth)
  {
    var words := Words(parameters);
    var action := words[0];
    if action !in Actions then Done(schedule, ShowUsage)
    else if |words| == 1 then
      if action in AddWords || action in NamingWords then NameError("prefix")
      else Done(schedule, Listed(schedule.Keys))
    else WithIdOrDelay(schedule, origin, action, words[1], words[2..], now, depth)
  }

  /** A task is due once its time has strictly passed. */
  predicate Due(task: Task, now: int)
  {
    task.fireTime < now
  }

  /** What the loop hands to the dispatcher for a due task. */
  datatype Firing = Firing(id: nat, origin: Context, command: string, params: string, depth: nat)

  /** The first word of the stored line is the command, the rest its parameters. */
  function FiringOf(id: nat, task: Task): Firing
  {
    Firing(id, task.origin, FirstToken(task.command, ' '), AfterFirstToken(task.command, ' '), task.depth)
  }

  /** The ids of a sequence of firings, in order. */
  function Ids(fired: seq<Firing>): (ids: seq<nat>)
    ensures |ids| == |fired|
    ensures forall i :: 0 <= i < |fired| ==> ids[i] == fired[i].id
  {
    seq(|fired|, i requires 0 <= i < |fired| => fired[i].id)
  }

  /**
   * One pass of `scheduler_loop`: every due task is removed and handed to
   * the dispatcher in increasing id order. The source walks the dict in
   * insertion order; the only insertion is `scheduler add` (selfbot.py:1003-1009),
   * whose new id is `max + 1` (`NextId`), so insertion order is increasing id
   * order. Tasks not yet due stay as they were.
   */
  function Tick(schedule: Schedule, now: int): (r: Pass)
    ensures forall k :: k in r.rest <==> k in schedule && !Due(schedule[k], now)
    ensures forall k :: k in r.rest ==> r.rest[k] == schedule[k]
    ensures forall i :: 0 <= i < |r.fired| ==>
              r.fired[i].id in schedule && Due(schedule[r.fired[i].id], now)
              && r.fired[i] == FiringOf(r.fired[i].id, schedule[r.fired[i].id])
    ensures forall i, j :: 0 <= i < j < |r.fired| ==> r.fired[i].id < r.fired[j].id
    ensures forall k :: k in schedule && Due(schedule[k], now) ==> k in Ids(r.fired)
  {
    var bound := NextId(schedule);
    DueFromSound(schedule, now, 0, bound);
    DueFromOrdered(schedule, now, 0, bound);
    DueFromComplete(schedule, now, 0, bound);
    Pass(map k | k in schedule && !Due(schedule[k], now) :: schedule[k], DueFrom(schedule, now, 0, bound))
  }

  /** What one pass leaves behind and what it hands to the dispatcher. */
  datatype Pass = Pass(rest: Schedule, fired: seq<Firing>)

  /** The firings of the due tasks with ids in `[from, bound)`, scanning upwards. */
  function DueFrom(schedule: Schedule, now: int, from: nat, bound: nat): seq<Firing>
    decreases bound - from
  {
    if from >= bound then []
    else if from in schedule && Due(schedule[from], now) then
      [FiringOf(from, schedule[from])] + DueFrom(schedule, now, from + 1, bound)
    else DueFrom(schedule, now, from + 1, bound)
  }

  /** Every firing in `fired` is a due task with an id in `[from, bound)`, turned into a firing. */
  ghost predicate FiresDueIn(schedule: Schedule, now: int, from: nat, bound: nat, fired: seq<Firing>)
  {
    forall i :: 0 <= i < |fired| ==>
      from <= fired[i].id < bound && fired[i].id in schedule && Due(schedule[fired[i].id], now)
      && fired[i] == FiringOf(fired[i].id, schedule[fired[i].id])
  }

  /** Every firing of the scan is a due task in the range, turned into a firing. */
  lemma {:induction false} DueFromSound(schedule: Schedule, now: int, from: nat, bound: nat)
    ensures FiresDueIn(schedule, now, from, bound, DueFrom(schedule, now, from, bound))
    decreases bound - from
  {
    if from < bound {
      DueFromSound(schedule, now, from + 1, bound);
      var later := DueFrom(schedule, now, from + 1, bound);
      if from in schedule && Due(schedule[from], now) {
        var fired := [FiringOf(from, schedule[from])] + later;
        assert DueFrom(schedule, now, from, bound) == fired;
        assert forall i :: 0 < i < |fired| ==> fired[i] == later[i - 1];
      } else {
        assert DueFrom(schedule, now, from, bound) == later;
      }
    }
  }

  /** The ids of `fired` strictly increase. */
  ghost predicate IncreasingIds(fired: seq<Firing>)
  {
    forall i, j :: 0 <= i < j < |fired| ==> fired[i].id < fired[j].id
  }

  /** The scan hands the tasks on in strictly increasing id order. */
  lemma {:induction false} DueFromOrdered(schedule: Schedule, now: int, from: nat, bound: nat)
    ensures IncreasingIds(DueFrom(schedule, now, from, bound))
    decreases bound - from
  {
    if from < bound {
      DueFromSound(schedule, now, from + 1, bound);
      DueFromOrdered(schedule, now, from + 1, bound);
      var later := DueFrom(schedule, now, from + 1, bound);
      if from in schedule && Due(schedule[from], now) {
        var fired := [FiringOf(from, schedule[from])] + later;
        assert DueFrom(schedule, now, from, bound) == fired;
        assert forall i :: 0 < i < |fired| ==> fired[i] == later[i - 1];
      } else {
        assert DueFrom(schedule, now, from, bound) == later;
      }
    }
  }

  /** Every due task with an id in `[from, bound)` has its id among those of `fired`. */
  ghost predicate CoversDueIn(schedule: Schedule, now: int, from: nat, bound: nat, fired: seq<Firing>)
  {
    forall k :: k in schedule && from <= k < bound && Due(schedule[k], now) ==> k in Ids(fired)
  }

  /** Every due task in the range is handed on. */
  lemma {:induction false} DueFromComplete(schedule: Schedule, now: int, from: nat, bound: nat)
    ensures CoversDueIn(schedule, now, from, bound, DueFrom(schedule, now, from, bound))
    decreases bound - from
  {
    if from < bound {
      DueFromComplete(schedule, now, from + 1, bound);
      var later := DueFrom(schedule, now, from + 1, bound);
      if from in schedule && Due(schedule[from], now) {
        var f := FiringOf(from, schedule[from]);
        assert DueFrom(schedule, now, from, bound) == [f] + later;
        assert Ids([f] + later) == [from] + Ids(later);
      } else {
        assert DueFrom(schedule, now, from, bound) == later;
      }
    }
  }

  /** The dispatch a firing performs: the stored command word is not lower-cased and the stored depth is used. */
  function Run(reg: Registry, aliases: map<string, string>, f: Firing): (r: Outcome)
    ensures f.depth >= MaxRecursionDepth ==> r == DepthExceeded(f.depth)
    ensures f.depth <= r.depth
  {
    Dispatch(reg, aliases, f.origin.inGuild, f.command, f.params, f.depth)
  }

  /**
   * An outcome of a scheduled dispatch whose error escapes the resolver as an
   * exception. A template that cannot be filled raises in the alias branch.
   * Every other error reply takes its footer from the first word of the origin
   * message, and the origin of a scheduled task is the `scheduler add` message,
   * which the add reply has already edited to empty text (selfbot.py:370,
   * 1010), so that footer raises too. Only a handler call does not escape: its
   * own errors are caught, including the failing error reply.
   */
  predicate Escapes(o: Outcome)
  {
    !o.Invoke?
  }

  /** Some outcome of `outs` escapes. */
  predicate SomeEscapes(outs: seq<Outcome>)
  {
    exists i :: 0 <= i < |outs| && Escapes(outs[i])
  }

  /** The ids of the first `n` firings. */
  function FiredIds(fired: seq<Firing>, n: nat): set<nat>
    requires n <= |fired|
  {
    set i | 0 <= i < n :: fired[i].id
  }

  /**
   * How a pass of `scheduler_loop` ends: the schedule it leaves, the outcome
   * of every dispatch it performed, and whether an exception escaped, which
   * ends the loop itself.
   */
  datatype PassResult = PassResult(rest: Schedule, outcomes: seq<Outcome>, stopped: bool)

  /** What dispatching each of `fired` would give, in order. */
  function Outcomes(reg: Registry, aliases: map<string, string>, fired: seq<Firing>): seq<Outcome>
  {
    seq(|fired|, i requires 0 <= i < |fired| => Run(reg, aliases, fired[i]))
  }

  /**
   * The outcomes actually produced when the dispatches run in order and
   * nothing catches an escaping error: those up to and including the first
   * that escapes.
   */
  function UpToEscape(outs: seq<Outcome>): seq<Outcome>
    decreases |outs|
  {
    if |outs| == 0 then []
    else if Escapes(outs[0]) then [outs[0]]
    else [outs[0]] + UpToEscape(outs[1..])
  }

  /** `done` is an initial part of `outs`, cut short only by an escaping last outcome, with no escape before it. */
  ghost predicate StopsAtFirstEscape(outs: seq<Outcome>, done: seq<Outcome>)
  {
    && |done| <= |outs| && done == outs[..|done|]
    && (forall i :: 0 <= i < |done| - 1 ==> !Escapes(done[i]))
    && (|done| < |outs| ==> |done| > 0 && Escapes(done[|done| - 1]))
  }

  /** The dispatches performed are those of the outcomes up to and including the first that raises. */
  lemma {:induction false} UpToEscapeStops(outs: seq<Outcome>)
    ensures StopsAtFirstEscape(outs, UpToEscape(outs))
    decreases |outs|
  {
    if |outs| > 0 && !Escapes(outs[0]) {
      var more := UpToEscape(outs[1..]);
      UpToEscapeStops(outs[1..]);
      var done := [outs[0]] + more;
      assert UpToEscape(outs) == done;
      assert forall i :: 0 < i < |done| ==> done[i] == more[i - 1];
      assert outs[..|done|] == [outs[0]] + outs[1..][..|more|];
    }
  }

  /** The run ends on an escaped error exactly when some outcome escapes; otherwise every dispatch is performed. */
  lemma StopsExactlyOnEscape(outs: seq<Outcome>)
    ensures var done := UpToEscape(outs);
            && ((|done| > 0 && Escapes(done[|done| - 1])) <==> SomeEscapes(outs))
            && (!(|done| > 0 && Escapes(done[|done| - 1])) ==> done == outs)
  {
    var done := UpToEscape(outs);
    UpToEscapeStops(outs);
    if |done| > 0 && Escapes(done[|done| - 1]) {
      assert Escapes(outs[|done| - 1]);
    } else {
      assert |done| == |outs|;
      forall i | 0 <= i < |outs| ensures !Escapes(outs[i]) {
        assert outs[i] == done[i];
      }
    }
  }

  /**
   * Deletes and dispatches `fired` in order, where `outs` is what each
   * dispatch gives, until a dispatch raises: the outcomes are those up to
   * the first that escapes, and only the dispatched tasks are gone.
   */
  function RunPass(schedule: Schedule, fired: seq<Firing>, outs: seq<Outcome>): (r: PassResult)
    requires |outs| == |fired|
    ensures StopsAtFirstEscape(outs, r.outcomes)
    ensures r.stopped <==> SomeEscapes(outs)
    ensures r.stopped ==> |r.outcomes| > 0 && Escapes(r.outcomes[|r.outcomes| - 1])
    ensures !r.stopped ==> r.outcomes == outs
    ensures r.stopped <==> SomeEscapes(r.outcomes)
    ensures |r.outcomes| <= |fired| && r.rest == schedule - FiredIds(fired, |r.outcomes|)
  {
    var done := UpToEscape(outs);
    UpToEscapeStops(outs);
    StopsExactlyOnEscape(outs);
    assert |done| > 0 && Escapes(done[|done| - 1]) ==> SomeEscapes(done);
    PassResult(schedule - FiredIds(fired, |done|), done, |done| > 0 && Escapes(done[|done| - 1]))
  }

  /** The tasks of the firings from the `n`-th on are all still in `rest`. */
  ghost predicate LaterStillScheduled(rest: Schedule, fired: seq<Firing>, n: nat)
  {
    forall i :: n <= i < |fired| ==> fired[i].id in rest
  }

  /**
   * One pass of `scheduler_loop` as the source runs it: the due tasks in id
   * order, each deleted and then dispatched, until a dispatch raises. When
   * none raises, the pass leaves what `Tick` leaves and every due task is
   * dispatched; when one does, that is the last dispatch and every later due
   * task is still scheduled.
   */
  function LoopPass(reg: Registry, aliases: map<string, string>, schedule: Schedule, now: int): (r: PassResult)
    ensures StopsAtFirstEscape(Outcomes(reg, aliases, Tick(schedule, now).fired), r.outcomes)
    ensures r.stopped <==> SomeEscapes(Outcomes(reg, aliases, Tick(schedule, now).fired))
    ensures r.stopped <==> SomeEscapes(r.outcomes)
    ensures !r.stopped ==> r.outcomes == Outcomes(reg, aliases, Tick(schedule, now).fired) && r.rest == Tick(schedule, now).rest
    ensures r.stopped ==> |r.outcomes| > 0 && Escapes(r.outcomes[|r.outcomes| - 1])
                          && LaterStillScheduled(r.rest, Tick(schedule, now).fired, |r.outcomes|)
  {
    var fired := Tick(schedule, now).fired;
    var r := RunPass(schedule, fired, Outcomes(reg, aliases, fired));
    PassAgainstTick(schedule, now, |r.outcomes|);
    r
  }

  /**
   * Deleting the ids of all firings of a pass leaves what `Tick` leaves, and
   * deleting those of a prefix leaves every later firing's task in place.
   */
  lemma PassAgainstTick(schedule: Schedule, now: int, n: nat)
    requires n <= |Tick(schedule, now).fired|
    ensures var pass := Tick(schedule, now);
            && (n == |pass.fired| ==> schedule - FiredIds(pass.fired, n) == pass.rest)
            && LaterStillScheduled(schedule - FiredIds(pass.fired, n), pass.fired, n)
  {
    var pass := Tick(schedule, now);
    var ids := FiredIds(pass.fired, n);
    forall i | n <= i < |pass.fired| ensures pass.fired[i].id !in ids {
      forall j | 0 <= j < n ensures pass.fired[j].id != pass.fired[i].id {
        assert pass.fired[j].id < pass.fired[i].id;
      }
    }
    if n == |pass.fired| {
      forall k | k in schedule && Due(schedule[k], now) ensures k in ids {
        assert k in Ids(pass.fired);
        var j :| 0 <= j < |pass.fired| && Ids(pass.fired)[j] == k;
        assert pass.fired[j].id == k;
      }
      forall k | k in ids ensures k in schedule && Due(schedule[k], now) {
        var j :| 0 <= j < n && pass.fired[j].id == k;
      }
      assert (schedule - ids).Keys == pass.rest.Keys;
    }
  }

  /** Where no dispatch raises, a pass of the loop removes exactly what `Tick` removes and dispatches every due task. */
  lemma PassWithoutEscapes(reg: Registry, aliases: map<string, string>, schedule: Schedule, now: int)
    requires forall f :: f in Tick(schedule, now).fired ==> !Escapes(Run(reg, aliases, f))
    ensures var r := LoopPass(reg, aliases, schedule, now);
            !r.stopped && r.rest == Tick(schedule, now).rest
            && r.outcomes == Outcomes(reg, aliases, Tick(schedule, now).fired)
  {
    var fired := Tick(schedule, now).fired;
    var outs := Outcomes(reg, aliases, fired);
    forall i | 0 <= i < |outs| ensures !Escapes(outs[i]) {
      assert fired[i] in fired;
    }
  }

  /**
   * A due task whose dispatch ends in an error reply, such as a scheduled
   * name in neither map, stops the loop in the pass where it fires; it and
   * every earlier due task are deleted, and it is the last dispatch.
   */
  lemma ErrorReplyStopsPass(reg: Registry, aliases: map<string, string>, schedule: Schedule, now: int, i: nat)
    requires i < |Tick(schedule, now).fired|
    requires !Run(reg, aliases, Tick(schedule, now).fired[i]).Invoke?
    ensures var r := LoopPass(reg, aliases, schedule, now);
            r.stopped && 0 < |r.outcomes| <= i + 1 && Escapes(r.outcomes[|r.outcomes| - 1])
  {
    var fired := Tick(schedule, now).fired;
    var outs := Outcomes(reg, aliases, fired);
    assert Escapes(outs[i]);
    var r := LoopPass(reg, aliases, schedule, now);
    assert forall j :: 0 <= j < |r.outcomes| ==> r.outcomes[j] == outs[j];
  }

  /** The state of `scheduler_loop`: the schedule, every dispatch so far, and whether the loop still runs. */
  datatype LoopState = LoopState(schedule: Schedule, outcomes: seq<Outcome>, running: bool)

  /**
   * `scheduler_loop` over successive clock readings, one pass per reading.
   * Once a dispatch raises, the loop task has ended: later readings run
   * nothing.
   */
  function Loop(reg: Registry, aliases: map<string, string>, schedule: Schedule, clock: seq<int>): (r: LoopState)
    // The loop still runs exactly when no dispatch so far has raised, and a raising dispatch is the last one.
    ensures EndsOnEscape(r.outcomes, r.running)
    decreases |clock|
  {
    if |clock| == 0 then LoopState(schedule, [], true)
    else
      var pass := LoopPass(reg, aliases, schedule, clock[0]);
      if pass.stopped then LoopState(pass.rest, pass.outcomes, false)
      else
        var more := Loop(reg, aliases, pass.rest, clock[1..]);
        SomeEscapesConcat(pass.outcomes, more.outcomes);
        LoopState(more.schedule, pass.outcomes + more.outcomes, more.running)
  }

  /** `running` says no outcome escaped; when one did, it is the last. */
  ghost predicate EndsOnEscape(outcomes: seq<Outcome>, running: bool)
  {
    && (running <==> !SomeEscapes(outcomes))
    && (!running ==> |outcomes| > 0 && Escapes(outcomes[|outcomes| - 1]))
  }

  /** An escape in a concatenation is an escape in one of its parts. */
  lemma SomeEscapesConcat(a: seq<Outcome>, b: seq<Outcome>)
    ensures SomeEscapes(a + b) <==> SomeEscapes(a) || SomeEscapes(b)
  {
    if SomeEscapes(a) {
      var i :| 0 <= i < |a| && Escapes(a[i]);
      assert (a + b)[i] == a[i];
    }
    if SomeEscapes(b) {
      var i :| 0 <= i < |b| && Escapes(b[i]);
      assert (a + b)[|a| + i] == b[i];
    }
    if SomeEscapes(a + b) {
      var i :| 0 <= i < |a + b| && Escapes((a + b)[i]);
      if i < |a| {
        assert a[i] == (a + b)[i];
      } else {
        assert b[i - |a|] == (a + b)[i];
      }
    }
  }

  /** After a dispatch has raised, more clock readings change nothing: no later pass runs. */
  lemma {:induction false} LoopEndsForGood(reg: Registry, aliases: map<string, string>, schedule: Schedule,
                                           clock: seq<int>, later: seq<int>)
    requires !Loop(reg, aliases, schedule, clock).running
    ensures Loop(reg, aliases, schedule, clock + later) == Loop(reg, aliases, schedule, clock)
    decreases |clock|
  {
    assert |clock| > 0;
    assert (clock + later)[0] == clock[0];
    var pass := LoopPass(reg, aliases, schedule, clock[0]);
    if !pass.stopped {
      assert (clock + later)[1..] == clock[1..] + later;
      LoopEndsForGood(reg, aliases, pass.rest, clock[1..], later);
    }
  }

  /**
   * `scheduler add <delay> <command line>` stores the command line verbatim
   * under a fresh id, due `delay` seconds from now, one level deeper; when it
   * fires, the dispatcher gets the first word of the line and the rest of it.
   */
  lemma {:induction false} AddSchedulesLine(schedule: Schedule, origin: Context, delay: string,
                                            command: string, params: string, now: int, depth: nat)
    requires ' ' !in delay && ' ' !in command
    ensures var r := SchedulerCommand(schedule, origin, "add " + delay + " " + command + " " + params, now, depth);
            && r.Done? && r.reply.Scheduled?
            && r.reply.id == NextId(schedule)
            && r.reply.command == command + " " + params
            && r.state[r.reply.id].fireTime == now + DurationSum(Strip(delay, DurationStripChars))
            && FiringOf(r.reply.id, r.state[r.reply.id]) == Firing(r.reply.id, origin, command, params, depth + 1)
  {
    var line := "add " + delay + " " + command + " " + params;
    assert line == "add" + " " + delay + " " + (command + " " + params);
    WordsOfLine("add", delay, command + " " + params);
    JoinSplit(command + " " + params, ' ');
    assert Words(line)[2..] == Words(command + " " + params);
    assert command + " " + params == command + [' '] + params;
    TokenSplit(command, params, ' ');
  }

  /**
   * `scheduler add #d#h#m#s ...` makes the task due the documented number of
   * seconds after it was scheduled.
   */
  lemma AddWithFullForm(schedule: Schedule, origin: Context, d: nat, h: nat, m: nat, s: nat,
                        command: string, params: string, now: int, depth: nat)
    requires ' ' !in command
    ensures var r := SchedulerCommand(schedule, origin, "add " + FullForm(d, h, m, s) + " " + command + " " + params, now, depth);
            && r.Done? && r.reply.Scheduled?
            && r.reply.delay == d * SecondsPerDay + h * SecondsPerHour + m * SecondsPerMinute + s
            && r.state[r.reply.id].fireTime == now + r.reply.delay
  {
    FullFormIsOneWord(d, h, m, s);
    AddSchedulesLine(schedule, origin, FullForm(d, h, m, s), command, params, now, depth);
    DurationOfFullForm(d, h, m, s);
  }

  /** A task scheduled at the last depth below the limit is refused by the depth check when it fires, and that stops the loop. */
  lemma ScheduledAtDepthLimitIsRefused(reg: Registry, aliases: map<string, string>, schedule: Schedule,
                                       origin: Context, parameters: string, now: int)
    requires SchedulerCommand(schedule, origin, parameters, now, MaxRecursionDepth - 1).Done?
    requires SchedulerCommand(schedule, origin, parameters, now, MaxRecursionDepth - 1).reply.Scheduled?
    ensures var r := SchedulerCommand(schedule, origin, parameters, now, MaxRecursionDepth - 1);
            && Run(reg, aliases, FiringOf(r.reply.id, r.state[r.reply.id])) == DepthExceeded(MaxRecursionDepth)
            && Escapes(Run(reg, aliases, FiringOf(r.reply.id, r.state[r.reply.id])))
  {
  }

  /** `scheduler show <id>` reports exactly that task and changes nothing. */
  lemma {:induction false} ShowReports(schedule: Schedule, origin: Context, id: nat, now: int, depth: nat)
    requires id in schedule
    ensures SchedulerCommand(schedule, origin, "show " + NatText(id), now, depth)
         == Done(schedule, Shown(id, schedule[id]))
  {
    var text := NatText(id);
    assert ' ' !in text;
    assert "show " + text == "show" + [' '] + text;
    SplitPrefix("show", text, ' ');
    SplitNoSep(text, ' ');
    NatTextValue(id);
  }

  /** `scheduler remove <id>` cancels exactly that task. */
  lemma {:induction false} RemoveCancels(schedule: Schedule, origin: Context, id: nat, now: int, depth: nat)
    requires id in schedule
    ensures SchedulerCommand(schedule, origin, "remove " + NatText(id), now, depth)
         == Done(schedule - {id}, Deleted(id))
  {
    var text := NatText(id);
    assert ' ' !in text;
    assert "remove " + text == "remove" + [' '] + text;
    SplitPrefix("remove", text, ' ');
    SplitNoSep(text, ' ');
    NatTextValue(id);
  }
}

=== FILE: template.dfy ===
/**
 * The part of Python's `str.format` that alias expansion and help texts use:
 * literal text, `{{` and `}}` escapes, and explicit positional fields `{n}`.
 */
module Template {
  import opened Base
  import opened Text

  /**
   * Why a template could not be filled in. `IndexOutOfRange` is Python's
   * IndexError for `{n}` with too few arguments; `Unsupported` covers a lone
   * brace and every field form outside explicit positional numbers.
   */
  datatype FormatError = IndexOutOfRange(index: nat) | Unsupported

  predicate IsBrace(c: char) { c == '{' || c == '}' }

  /** A template without braces, which formatting leaves as it is. */
  predicate BraceFree(t: string) { forall i :: 0 <= i < |t| ==> !IsBrace(t[i]) }

  function Prepend(p: string, r: Result<string, FormatError>): Result<string, FormatError>
  {
    match r
    case Ok(v) => Ok(p + v)
    case Err(e) => Err(e)
  }

  /**
   * `t.format(*args)`, read left to right: the first field that cannot be
   * filled is the error that escapes.
   */
  function Format(t: string, args: seq<string>): (r: Result<string, FormatError>)
    ensures BraceFree(t) ==> r == Ok(t)
    decreases |t|
  {
    if |t| == 0 then Ok("")
    else if t[0] == '{' && |t| >= 2 && t[1] == '{' then Prepend("{", Format(t[2..], args))
    else if t[0] == '}' && |t| >= 2 && t[1] == '}' then Prepend("}", Format(t[2..], args))
    else if t[0] == '{' then
      var k := DigitRunLength(t[1..]);
      if 0 < k && k + 1 < |t| && t[k + 1] == '}' then
        assert t[1..k + 1] == t[1..][..k];
        var n := DecimalValue(t[1..k + 1]);
        if n < |args| then Prepend(args[n], Format(t[k + 2..], args))
        else Err(IndexOutOfRange(n))
      else Err(Unsupported)
    else if t[0] == '}' then Err(Unsupported)
    else
      assert BraceFree(t) ==> BraceFree(t[1..]);
      assert [t[0]] + t[1..] == t;
      Prepend([t[0]], Format(t[1..], args))
  }

  lemma PrependPrepend(x: string, y: string, r: Result<string, FormatError>)
    ensures Prepend(x, Prepend(y, r)) == Prepend(x + y, r)
  {
    match r
    case Ok(v) => assert x + (y + v) == (x + y) + v;
    case Err(_) =>
  }

  lemma FormatLiteralChar(c: char, t: string, args: seq<string>)
    requires !IsBrace(c)
    ensures Format([c] + t, args) == Prepend([c], Format(t, args))
  {
    var s := [c] + t;
    assert s[0] == c && s[1..] == t;
  }

  /** Literal text in front of a template is copied through unchanged. */
  lemma {:induction false} FormatLiteralPrefix(a: string, t: string, args: seq<string>)
    requires BraceFree(a)
    ensures Format(a + t, args) == Prepend(a, Format(t, args))
    decreases |a|
  {
    if |a| > 0 {
      assert a + t == [a[0]] + (a[1..] + t);
      FormatLiteralChar(a[0], a[1..] + t, args);
      assert BraceFree(a[1..]);
      FormatLiteralPrefix(a[1..], t, args);
      PrependPrepend([a[0]], a[1..], Format(t, args));
      assert [a[0]] + a[1..] == a;
    } else {
      assert a + t == t;
      match Format(t, args)
      case Ok(v) => assert a + v == v;
      case Err(_) =>
    }
  }

  /** A field `{n}` is replaced by the n-th argument when there is one, and fails otherwise. */
  lemma FormatField(n: nat, t: string, args: seq<string>)
    ensures n < |args| ==> Format("{" + NatText(n) + "}" + t, args) == Prepend(args[n], Format(t, args))
    ensures n >= |args| ==> Format("{" + NatText(n) + "}" + t, args) == Err(IndexOutOfRange(n))
  {
    var d := NatText(n);
    var s := "{" + d + "}" + t;
    var k := |d|;
    assert s[1..] == d + "}" + t;
    assert s[1..][..k] == d;
    DigitRunLengthUnique(s[1..], k);
    assert s[1..k + 1] == d;
    NatTextValue(n);
    assert s[k + 2..] == t;
  }

  /** The single-field template "{0}" reproduces the first argument. */
  lemma FormatWhole(args: seq<string>)
    requires |args| >= 1
    ensures Format("{0}", args) == Ok(args[0])
  {
    FormatField(0, "", args);
    assert NatText(0) == "0";
    assert "{" + NatText(0) + "}" + "" == "{0}";
    assert args[0] + "" == args[0];
  }
}

=== FILE: text.dfy ===
/**
 * The string primitives the self-bot relies on, written with Python's
 * semantics: `str.split(sep)` with a one-character separator, `sep.join`,
 * `str.strip(chars)`, `str.isdigit`, `int(...)` on a digit string, `str(n)`
 * for a natural number, `str.lower` and `str.startswith`.
 */
module Text {

  /* ---------------------------------------------------------------- split / join */

  /**
   * `s.split(sep)`: cuts at every occurrence of `sep`, keeping empty pieces;
   * the empty string splits into one empty piece, so the result is never empty.
   */
  function Split(s: string, sep: char): (parts: seq<string>)
    ensures |parts| >= 1
    ensures forall i :: 0 <= i < |parts| ==> sep !in parts[i]
    ensures |parts| - 1 == CountOf(s, sep)
    decreases |s|
  {
    if |s| == 0 then [""]
    else
      var rest := Split(s[1..], sep);
      if s[0] == sep then [""] + rest
      else [[s[0]] + rest[0]] + rest[1..]
  }

  /** Number of occurrences of `c` in `s`. */
  function CountOf(s: string, c: char): nat
    decreases |s|
  {
    if |s| == 0 then 0 else (if s[0] == c then 1 else 0) + CountOf(s[1..], c)
  }

  /** `sep.join(parts)`: the pieces with one separator between neighbours. */
  function Join(parts: seq<string>, sep: char): string
    decreases |parts|
  {
    if |parts| == 0 then ""
    else if |parts| == 1 then parts[0]
    else parts[0] + [sep] + Join(parts[1..], sep)
  }

  lemma JoinCons(w: string, tail: seq<string>, sep: char)
    requires |tail| >= 1
    ensures Join([w] + tail, sep) == w + [sep] + Join(tail, sep)
  {
    assert ([w] + tail)[1..] == tail;
  }

  /** Joining the pieces of a split gives back the original string. */
  lemma {:induction false} JoinSplit(s: string, sep: char)
    ensures Join(Split(s, sep), sep) == s
    decreases |s|
  {
    if |s| == 0 {
    } else {
      var rest := Split(s[1..], sep);
      JoinSplit(s[1..], sep);
      if s[0] == sep {
        JoinCons("", rest, sep);
        assert s == [sep] + s[1..];
      } else {
        if |rest| == 1 {
          assert Split(s, sep) == [[s[0]] + rest[0]];
          assert s == [s[0]] + s[1..];
        } else {
          JoinCons([s[0]] + rest[0], rest[1..], sep);
          JoinCons(rest[0], rest[1..], sep);
          assert rest == [rest[0]] + rest[1..];
          assert s == [s[0]] + s[1..];
        }
      }
    }
  }

  /** A string without the separator splits into itself alone. */
  lemma {:induction false} SplitNoSep(w: string, sep: char)
    requires sep !in w
    ensures Split(w, sep) == [w]
    decreases |w|
  {
    if |w| > 0 {
      assert sep !in w[1..] by {
        forall i | 0 <= i < |w[1..]| ensures w[1..][i] != sep {
          assert w[1..][i] == w[i + 1];
        }
      }
      SplitNoSep(w[1..], sep);
      assert [w[0]] + w[1..] == w;
    }
  }

  /** A separator-free word followed by the separator is split off as the first piece. */
  lemma {:induction false} SplitPrefix(w: string, t: string, sep: char)
    requires sep !in w
    ensures Split(w + [sep] + t, sep) == [w] + Split(t, sep)
    decreases |w|
  {
    var s := w + [sep] + t;
    if |w| == 0 {
      assert s[1..] == t;
    } else {
      assert s[1..] == w[1..] + [sep] + t;
      assert sep !in w[1..] by {
        forall i | 0 <= i < |w[1..]| ensures w[1..][i] != sep {
          assert w[1..][i] == w[i + 1];
        }
      }
      SplitPrefix(w[1..], t, sep);
      assert [w[0]] + w[1..] == w;
    }
  }

  /** Splitting a join of separator-free pieces gives back the pieces. */
  lemma {:induction false} SplitJoin(parts: seq<string>, sep: char)
    requires |parts| >= 1
    requires forall i :: 0 <= i < |parts| ==> sep !in parts[i]
    ensures Split(Join(parts, sep), sep) == parts
    decreases |parts|
  {
    if |parts| == 1 {
      SplitNoSep(parts[0], sep);
    } else {
      SplitJoin(parts[1..], sep);
      SplitPrefix(parts[0], Join(parts[1..], sep), sep);
      assert parts == [parts[0]] + parts[1..];
    }
  }

  /** `s.split(' ')`: the words of a command line, as the handlers cut it. */
  function Words(s: string): seq<string>
  {
    Split(s, ' ')
  }

  /** The words of `first second rest` when the first two are single words; the rest joins back unchanged. */
  lemma WordsOfLine(first: string, second: string, rest: string)
    requires ' ' !in first && ' ' !in second
    ensures Words(first + " " + second + " " + rest) == [first, second] + Words(rest)
    ensures Join(Words(first + " " + second + " " + rest)[2..], ' ') == rest
  {
    assert first + " " + second + " " + rest == first + [' '] + (second + [' '] + rest);
    SplitPrefix(first, second + [' '] + rest, ' ');
    SplitPrefix(second, rest, ' ');
    var ws := Words(first + " " + second + " " + rest);
    assert ws[2..] == Words(rest);
    JoinSplit(rest, ' ');
  }

  /** The words of `first second` when both are single words. */
  lemma WordsOfPair(first: string, second: string)
    requires ' ' !in first && ' ' !in second
    ensures Words(first + " " + second) == [first, second]
  {
    SplitPrefix(first, second, ' ');
    SplitNoSep(second, ' ');
  }

  /** A word followed by a space and more text splits into that word and the words of the rest. */
  lemma WordsCons(first: string, rest: string)
    requires ' ' !in first
    ensures Words(first + " " + rest) == [first] + Words(rest)
  {
    assert first + " " + rest == first + [' '] + rest;
    SplitPrefix(first, rest, ' ');
  }

  /** `s.split(sep, 1)[0]`, equivalently `s.split(sep)[0]`: the text before the first separator. */
  function FirstToken(s: string, sep: char): string
  {
    Split(s, sep)[0]
  }

  /** `sep.join(s.split(sep)[1:])`: the text after the first separator, or "" when there is none. */
  function AfterFirstToken(s: string, sep: char): string
  {
    Join(Split(s, sep)[1..], sep)
  }

  /** The first token and the remainder are exactly the two sides of the first separator. */
  lemma TokenSplit(w: string, t: string, sep: char)
    requires sep !in w
    ensures FirstToken(w + [sep] + t, sep) == w
    ensures AfterFirstToken(w + [sep] + t, sep) == t
  {
    SplitPrefix(w, t, sep);
    assert Split(w + [sep] + t, sep)[1..] == Split(t, sep);
    JoinSplit(t, sep);
  }

  /** Without a separator, the whole string is the first token and nothing remains. */
  lemma TokenAlone(w: string, sep: char)
    requires sep !in w
    ensures FirstToken(w, sep) == w
    ensures AfterFirstToken(w, sep) == ""
  {
    SplitNoSep(w, sep);
  }

  /* ---------------------------------------------------------------- strip */

  /** How many leading characters of `s` belong to `cs`. */
  function LeadingCount(s: string, cs: set<char>): (k: nat)
    ensures k <= |s|
    ensures forall j :: 0 <= j < k ==> s[j] in cs
    ensures k < |s| ==> s[k] !in cs
    decreases |s|
  {
    if |s| > 0 && s[0] in cs then 1 + LeadingCount(s[1..], cs) else 0
  }

  /** How many trailing characters of `s` belong to `cs`. */
  function TrailingCount(s: string, cs: set<char>): (k: nat)
    ensures k <= |s|
    ensures forall j :: |s| - k <= j < |s| ==> s[j] in cs
    ensures k < |s| ==> s[|s| - 1 - k] !in cs
    decreases |s|
  {
    if |s| > 0 && s[|s| - 1] in cs then 1 + TrailingCount(s[..|s| - 1], cs) else 0
  }

  /**
   * `s.strip(chars)`: removes the longest prefix and the longest suffix made of
   * characters in `cs`; what remains neither starts nor ends with one of them.
   */
  function Strip(s: string, cs: set<char>): (r: string)
    ensures |r| <= |s|
    ensures |r| > 0 ==> r[0] !in cs && r[|r| - 1] !in cs
    ensures LeadingCount(s, cs) + |r| <= |s| && r == s[LeadingCount(s, cs)..LeadingCount(s, cs) + |r|]
    ensures forall j :: LeadingCount(s, cs) + |r| <= j < |s| ==> s[j] in cs
    ensures (|s| == 0 || (s[0] !in cs && s[|s| - 1] !in cs)) ==> r == s
    ensures (forall j :: 0 <= j < |s| ==> s[j] in cs) ==> r == ""
  {
    var i := LeadingCount(s, cs);
    var t := s[i..];
    var k := TrailingCount(t, cs);
    var r := t[..|t| - k];
    assert s[i..i + |r|] == r;
    assert (|s| > 0 && s[0] !in cs && s[|s| - 1] !in cs) ==> i == 0 && k == 0;
    r
  }

  /** Stripping a text framed by removable characters gives back the text, when it neither starts nor ends with one. */
  lemma StripFramed(a: string, t: string, b: string, cs: set<char>)
    requires forall j :: 0 <= j < |a| ==> a[j] in cs
    requires forall j :: 0 <= j < |b| ==> b[j] in cs
    requires |t| > 0 && t[0] !in cs && t[|t| - 1] !in cs
    ensures Strip(a + t + b, cs) == t
  {
    var s := a + t + b;
    assert t == s[|a|..|a| + |t|];
  }

  /**
   * The characters Python's argument-less `str.strip()` removes: the ASCII
   * whitespace and separators and the Unicode space characters.
   */
  const Whitespace: set<char> :=
    {' ', '\t', '\n', '\r', '\U{000B}', '\U{000C}', '\U{001C}', '\U{001D}', '\U{001E}', '\U{001F}',
     '\U{0085}', '\U{00A0}', '\U{1680}', '\U{2000}', '\U{2001}', '\U{2002}', '\U{2003}', '\U{2004}',
     '\U{2005}', '\U{2006}', '\U{2007}', '\U{2008}', '\U{2009}', '\U{200A}', '\U{2028}', '\U{2029}',
     '\U{202F}', '\U{205F}', '\U{3000}'}

  /* ---------------------------------------------------------------- decimal numbers */

  predicate IsDigit(c: char) { '0' <= c <= '9' }

  /** `s.isdigit()` restricted to ASCII digits, without the non-empty requirement. */
  predicate AllDigits(s: string) { forall i :: 0 <= i < |s| ==> IsDigit(s[i]) }

  /** The decimal text of a natural number as `str(n)` writes it: no leading zero. */
  predicate IsCanonicalDecimal(s: string)
  {
    |s| >= 1 && AllDigits(s) && (|s| == 1 || s[0] != '0')
  }

  function DigitValue(c: char): nat
    requires IsDigit(c)
  {
    (c as int) - ('0' as int)
  }

  function DigitChar(d: nat): (c: char)
    requires d < 10
    ensures IsDigit(c) && DigitValue(c) == d
  {
    (('0' as int) + d) as char
  }

  /** `int(s)` for a string of ASCII digits (the empty string counts as 0). */
  function DecimalValue(s: string): nat
    requires AllDigits(s)
    decreases |s|
  {
    if |s| == 0 then 0 else 10 * DecimalValue(s[..|s| - 1]) + DigitValue(s[|s| - 1])
  }

  /** `str(n)` for a natural number. */
  function NatText(n: nat): (s: string)
    ensures IsCanonicalDecimal(s)
    ensures n > 0 ==> s[0] != '0'
    decreases n
  {
    if n < 10 then [DigitChar(n)]
    else NatText(n / 10) + [DigitChar(n % 10)]
  }

  /** `str(i)` for any integer. */
  function IntText(i: int): string
  {
    if i < 0 then "-" + NatText(-i) else NatText(i)
  }

  /** The text of an integer is one word. */
  lemma IntTextHasNoSpace(i: int)
    ensures ' ' !in IntText(i)
  {
    var n := if i < 0 then -i else i;
    var t := NatText(n);
    assert forall k :: 0 <= k < |t| ==> IsDigit(t[k]);
    assert ' ' !in t;
  }

  /** The text of an integer starts with a minus sign exactly when the integer is negative. */
  lemma IntTextSign(i: int)
    ensures |IntText(i)| > 0 && (IntText(i)[0] == '-' <==> i < 0)
  {
    if i >= 0 {
      assert IsDigit(NatText(i)[0]);
    }
  }

  /** Distinct integers have distinct texts. */
  lemma IntTextInjective(i: int, j: int)
    requires IntText(i) == IntText(j)
    ensures i == j
  {
    IntTextSign(i);
    IntTextSign(j);
    if i < 0 && j < 0 {
      assert NatText(-i) == IntText(i)[1..] == IntText(j)[1..] == NatText(-j);
      NatTextInjective(-i, -j);
    } else if i >= 0 && j >= 0 {
      NatTextInjective(i, j);
    }
  }

  /** Distinct naturals have distinct texts. */
  lemma NatTextInjective(a: nat, b: nat)
    requires NatText(a) == NatText(b)
    ensures a == b
  {
    NatTextValue(a);
    NatTextValue(b);
  }

  /** Reading back the text of a number gives the number. */
  lemma {:induction false} NatTextValue(n: nat)
    ensures AllDigits(NatText(n)) && DecimalValue(NatText(n)) == n
    decreases n
  {
    if n >= 10 {
      NatTextValue(n / 10);
      var s := NatText(n);
      assert s[..|s| - 1] == NatText(n / 10);
    }
  }

  lemma {:induction false} CanonicalPositive(s: string)
    requires IsCanonicalDecimal(s) && |s| >= 2
    ensures DecimalValue(s) >= 10
    decreases |s|
  {
    var p := s[..|s| - 1];
    assert IsCanonicalDecimal(p) by { assert p[0] == s[0]; }
    if |p| >= 2 {
      CanonicalPositive(p);
    } else {
      assert DecimalValue(p) == DigitValue(p[0]);
    }
  }

  /** A canonical decimal text is the text of its own value: `str(int(s)) == s`. */
  lemma {:induction false} DecimalValueText(s: string)
    requires IsCanonicalDecimal(s)
    ensures NatText(DecimalValue(s)) == s
    decreases |s|
  {
    if |s| >= 2 {
      var p := s[..|s| - 1];
      assert IsCanonicalDecimal(p) by { assert p[0] == s[0]; }
      DecimalValueText(p);
      CanonicalPositive(s);
      var v := DecimalValue(s);
      assert v / 10 == DecimalValue(p);
      assert v % 10 == DigitValue(s[|s| - 1]);
      assert s == p + [s[|s| - 1]];
    }
  }

  /**
   * Membership of a text among the decimal texts of a set of numbers, as in
   * `text in map(str, ids)`: exactly when it is canonical and names a member.
   */
  lemma DecimalTextMember(text: string, ids: set<nat>)
    ensures (exists n :: n in ids && NatText(n) == text)
        <==> (IsCanonicalDecimal(text) && DecimalValue(text) in ids)
  {
    if exists n :: n in ids && NatText(n) == text {
      var n :| n in ids && NatText(n) == text;
      NatTextValue(n);
    }
    if IsCanonicalDecimal(text) && DecimalValue(text) in ids {
      DecimalValueText(text);
    }
  }

  /** The length of the run of digits at the start of `s`. */
  function DigitRunLength(s: string): (k: nat)
    ensures k <= |s|
    ensures AllDigits(s[..k])
    ensures k < |s| ==> !IsDigit(s[k])
    decreases |s|
  {
    if |s| > 0 && IsDigit(s[0]) then
      var k := 1 + DigitRunLength(s[1..]);
      assert s[..k] == [s[0]] + s[1..][..k - 1];
      k
    else 0
  }

  /** The digit run is the only length with the properties `DigitRunLength` promises. */
  lemma {:induction false} DigitRunLengthUnique(s: string, k: nat)
    requires k <= |s| && AllDigits(s[..k])
    requires k < |s| ==> !IsDigit(s[k])
    ensures DigitRunLength(s) == k
  {
    var r := DigitRunLength(s);
    forall i | 0 <= i < k ensures IsDigit(s[i]) {
      assert s[..k][i] == s[i];
    }
    forall i | 0 <= i < r ensures IsDigit(s[i]) {
      assert s[..r][i] == s[i];
    }
  }

  /* ---------------------------------------------------------------- case and prefixes */

  /** `c.lower()` on ASCII letters; every other character is left as it is. */
  function LowerChar(c: char): (r: char)
    ensures 'A' <= c <= 'Z' ==> 'a' <= r <= 'z' && r as int - 'a' as int == c as int - 'A' as int
    ensures !('A' <= c <= 'Z') ==> r == c
  {
    if 'A' <= c <= 'Z' then ((c as int) + 32) as char else c
  }

  /**
   * `s.lower()`: every capital becomes the small letter in the same place of
   * the alphabet, every other character stays, and no capital is left.
   */
  function Lower(s: string): (r: string)
    ensures |r| == |s|
    ensures forall i :: 0 <= i < |s| && 'A' <= s[i] <= 'Z' ==>
              'a' <= r[i] <= 'z' && r[i] as int - 'a' as int == s[i] as int - 'A' as int
    ensures forall i :: 0 <= i < |s| && !('A' <= s[i] <= 'Z') ==> r[i] == s[i]
    ensures forall i :: 0 <= i < |r| ==> !('A' <= r[i] <= 'Z')
  {
    seq(|s|, i requires 0 <= i < |s| => LowerChar(s[i]))
  }

  /** Lower-casing twice is lower-casing once. */
  lemma LowerIdempotent(s: string)
    ensures Lower(Lower(s)) == Lower(s)
  {
  }

  predicate StartsWith(s: string, prefix: string)
  {
    |prefix| <= |s| && s[..|prefix|] == prefix
  }
}
